=== FILE: README.md ===
# Oxidized install and disaster-recovery scripts: a Dafny model

Three Python scripts set up and restore an Oxidized network-configuration
backup server:

- `install_oxidized.py` works out the target account and the GitHub mirror URL.
  It creates a deploy key if there is none and adds a `Host github.com` stanza
  to the account's SSH configuration. It initialises the two local git
  repositories, sets `origin`, writes Oxidized's configuration and writes a
  default `router.db` when it is missing.
- `restore_oxidized.py` rebuilds an installation from the mirror. It takes the
  same account and URL, installs git, makes sure of the key and the stanza,
  and clones the mirror. It then runs the installer from the home directory
  when a copy is there. Last, it copies the configuration, the device list and
  the model files of the mirror's `setup` directory, and the mirror's backup
  directory, into `~user/.config/oxidized`, and the two scripts into `~user`.
- `install_oxidized_exporter.py` adds a scrape job for the exporter to a local
  Prometheus configuration, unless one is already there.

The model keeps the deterministic part of these scripts:

- the string logic: the URL rewrite, `strip`, `split`, `replace` and substring
  tests;
- the "check, then append" and "write if absent" steps;
- the copy steps of the recovery.

These all work on a filesystem that is a map from path to content. Commands
are not run: their outcome is an input (`Commands.Process`, `KeyPair.KeyGen`,
and the map of clonable repositories in `Recovery.RecoveryEnv`). Prompts are
inputs too: `Option<string>`, where `None` is end of input.

Where a finding below shows that a script misbehaves, the runs
(`Install.Install`, `Recovery.Recover`) use the code as written. Next to it
stands a corrected definition with the intended property proved about it
(`GitHubUrl.Normalize`, `Recovery.RecoverIntended`).

Modules, in dependency order:

| module | content |
|---|---|
| `Base` | `Option`, `Result` (a value or an exit status), `Progress` (a state that goes on or stops with a status) |
| `Text` | Python's `in`, `split(sep)[-1]`, `replace`, `strip` (with `str.isspace`) |
| `Files` | paths, `os.path.join`, the filesystem map, append, write-if-absent, copy of a directory's files |
| `GuardedAppend` | append unless a marker is present |
| `Commands` | the two `subprocess.run(..., check=True)` wrappers |
| `Identity` | target user, home directory, base directories, key and SSH config paths |
| `GitHubUrl` | URL acquisition and the rewrite to SSH form, as written and as intended |
| `SshAccess` | the `Host github.com` stanza and the two scripts' containment tests |
| `KeyPair` | generate the key only when missing, in both scripts' variants |
| `Inventory` | `router.db` records, the CSV column map, the default file |
| `Exporter` | the Prometheus scrape-job integration |
| `Install` | one installer run over files and git repositories |
| `Recovery` | one recovery run: setup copy, backup copy, as written and corrected |

## Model

| member | source | states |
|---|---|---|
| Text.Strip | install_oxidized.py:66-70 | `str.strip()`: the result is a slice of the input, everything cut off on either side is whitespace, and the result neither starts nor ends with whitespace |
| Text.StripEmptyIffBlank | restore_oxidized.py:41-52 | a stripped value is empty exactly when the input is all whitespace, which is what the scripts' `if not url` tests |
| Text.StripIdempotent | install_oxidized.py:66-70 | stripping twice is stripping once |
| Text.SplitJoin | install_oxidized.py:76 | `split(sep)` loses nothing: its pieces joined by the separator give back the input |
| Text.SplitPiecesFree | install_oxidized.py:76 | no piece of `split(sep)` contains the separator |
| Text.SplitLastAfter | install_oxidized.py:76 | `split(sep)[-1]` of `a + sep + p` is `p` when `p` has no separator and the separator cannot overlap itself |
| Text.SplitJoinWith | install_oxidized.py:198-199 | joining fields with a one-character delimiter none of them holds and splitting again gives back the fields |
| Text.ReplaceAbsent | install_oxidized.py:76 | `replace` of a pattern that does not occur is the identity |
| Text.ReplaceSkipHeadless | install_oxidized.py:76 | `replace` passes over a prefix that cannot start the pattern |
| Text.ContainsIffOccurs | install_oxidized.py:74 | Python's `in` on strings holds exactly when the pattern occurs at some index |
| Files.JoinInjective | restore_oxidized.py:126 | `os.path.join(dir, name)` for different names gives different paths |
| Files.JoinTwoInjective | restore_oxidized.py:126 | two-level joins collide only when both names agree |
| Files.JoinDepthDiffers | restore_oxidized.py:119-126 | a file directly in a directory is never a file one level further down |
| Files.Append | install_oxidized.py:101-102 | `open(p, "a").write(t)`: the old content stays an exact prefix, followed by exactly `t`; no other file changes |
| Files.WriteIfAbsent | install_oxidized.py:196-199 | the file is written only when missing, otherwise the filesystem is unchanged |
| Files.WriteIfAbsentIdempotent | install_oxidized.py:196-199 | a second write-if-absent changes nothing, whatever text it carries |
| Files.CopyAll | restore_oxidized.py:123-126 | every file of the source directory lands under its own name in the target directory, and nothing else changes |
| GuardedAppend.AppendUnlessPresent | install_oxidized_exporter.py:63-70 | the text is appended exactly when the marker is absent (or the file missing); the old content is kept as a prefix; a marker carried by the text is present afterwards |
| GuardedAppend.AppendUnlessPresentIdempotent | install_oxidized_exporter.py:63-70 | when the appended text carries the marker, a second application changes nothing |
| Commands.RunCommand | restore_oxidized.py:8-15 | `run_command` is true for exit code 0 and false for any other code; only a program that cannot be started ends the script, with status 1; the exporter installer's `run_command` (install_oxidized_exporter.py:6-13) is the same wrapper |
| Commands.InstallCommand | install_oxidized.py:7-13 | `executar_comando` succeeds only on exit code 0 and otherwise ends the script with status 1 |
| Commands.WrappersAgree | restore_oxidized.py:8-15 | both wrappers agree on success; where the recovery wrapper reports failure and goes on, the installer stops with status 1 |
| Identity.UserHomesHead | install_oxidized.py:20-24 | the `/home` comprehension is non-empty exactly when some entry is a directory other than `lost+found`, and its head is the first such entry |
| Identity.ResolveUserRule | install_oxidized.py:17-26 | the user is `SUDO_USER` when set and not `root`, else the first user home under `/home`, else `root` |
| Identity.ResolveUser | restore_oxidized.py:18-30 | the resolved user name is never empty |
| Identity.DropTrailingSlashes | restore_oxidized.py:32 | `rstrip('/')`: the result is a prefix of the entry that does not end in `/`, and everything cut off is `/` |
| Identity.HomeOf | restore_oxidized.py:32 | `expanduser("~user")` is never empty and leaves `~user` unexpanded for an unknown account; for a known one it is the password-database entry with its trailing `/` removed, or `/` when the entry is only slashes |
| Identity.InstallAccount | install_oxidized.py:28-30 | the installer works for the resolved user, with the base directory fixed at `/opt/oxidized` |
| Identity.RecoveryAccount | restore_oxidized.py:32-33 | the recovery script works for the same resolved user, with the base directory `.config/oxidized` inside that user's home directory |
| Identity.RecoveryBaseShape | restore_oxidized.py:33 | `os.path.join(home, ".config", "oxidized")` is the home directory, a `/` unless it already ends in one, then `.config/oxidized`, whatever the home directory |
| Identity.BasesDiverge | restore_oxidized.py:33 | the two scripts resolve the same user, but the recovery base is never the installer's `/opt/oxidized` |
| GitHubUrl.NormalizeAsWritten | install_oxidized.py:74-77 | a URL naming `github.com/` without `git@` becomes one that starts with `git@github.com:` and ends with `.git`; every other URL, the empty one included, is returned unchanged |
| GitHubUrl.NormalizeAsWrittenRewrites | install_oxidized.py:74-77 | for `a + "github.com/" + p` the result is `git@github.com:` + `p` with every `.git` removed + `.git`; restore_oxidized.py:55-57 is the same code |
| GitHubUrl.RepoPathShape | install_oxidized.py:76 | the text after the last `github.com/` holds no `github.com/`, and the URL ends with `github.com/` followed by it |
| GitHubUrl.NormalizeIdempotent | install_oxidized.py:74-77 | the output holds `git@`, so rewriting again is the identity, for both rewrites |
| GitHubUrl.SshFormUnchanged | install_oxidized.py:74 | an address already in SSH form is returned unchanged |
| GitHubUrl.UsageFormPlain | install_oxidized.py:70 | `https://github.com/owner/repo` becomes `git@github.com:owner/repo.git` under both rewrites |
| GitHubUrl.AsWrittenMangles | install_oxidized.py:76 | `https://github.com/o/o.github.io` is rewritten to `git@github.com:o/ohub.io.git` |
| GitHubUrl.Normalize | install_oxidized.py:74-77 | the corrected rewrite: the same shape and the same unchanged cases |
| GitHubUrl.NormalizeKeepsRepoPath | install_oxidized.py:74-77 | the corrected rewrite keeps the repository path verbatim and adds `.git` only when it does not already end the path |
| GitHubUrl.IntendedKeepsPagesName | install_oxidized.py:76 | the corrected rewrite keeps `o.github.io` intact |
| GitHubUrl.UsageFormWithSuffix | install_oxidized.py:70 | `https://github.com/owner/repo.git` gets no second `.git` from the corrected rewrite |
| GitHubUrl.InstallUrl | install_oxidized.py:64-77 | the installer's URL is empty exactly when the stripped argument is empty and the prompt gives end of input or a blank line; a non-empty value goes through the rewrite as written |
| GitHubUrl.RecoveryUrl | restore_oxidized.py:39-57 | the recovery URL is never empty; end of input at the prompt, or an empty value, ends the run with status 1 |
| GitHubUrl.ArgumentWins | install_oxidized.py:65-68 | a non-empty stripped argument decides the URL in both scripts, rewritten as written; the prompt is not consulted |
| GitHubUrl.PromptDecidesWithoutArgument | restore_oxidized.py:43-57 | without an argument the stripped prompt line, rewritten as written, is the URL in both scripts; a blank line gives the installer no URL and ends the recovery with status 1 |
| GitHubUrl.EndOfInputWithoutArgument | install_oxidized.py:68-72 | without an argument, end of input at the prompt gives the installer an empty URL and ends the recovery with status 1 (restore_oxidized.py:44-48) |
| GitHubUrl.RecoveryAgreesWithInstall | restore_oxidized.py:39-57 | recovery obtains a URL exactly when the installer would obtain a non-empty one from the same inputs, and then the same URL |
| SshAccess.StanzaCarriesMarkers | install_oxidized.py:98 | the stanza names the key both as a bare path and as `IdentityFile <key>` |
| SshAccess.InstallSshConfig | install_oxidized.py:97-102 | the stanza is appended exactly when the file is missing or lacks the key path; afterwards the file holds the key path, the old content is a prefix, and no other file changes |
| SshAccess.RecoverySshConfig | restore_oxidized.py:79-90 | the stanza is appended exactly when the file is missing or lacks `IdentityFile <key>`; afterwards it holds that text, with the old content as a prefix |
| SshAccess.SshConfigOnce | install_oxidized.py:100-102 | the new content is the old content plus at most one stanza, and a second run changes nothing, in both scripts |
| SshAccess.RecoveryCheckImpliesInstallCheck | restore_oxidized.py:82-86 | whenever the recovery script leaves the file alone, so does the installer |
| SshAccess.ChecksDiverge | restore_oxidized.py:85 | a file that mentions the key path outside an `IdentityFile` line satisfies the installer's test but not the recovery script's |
| KeyPair.Generate | install_oxidized.py:83 | a successful `ssh-keygen -f key` leaves the private and the public key and changes nothing else |
| KeyPair.EnsureKeyInstall | install_oxidized.py:81-90 | a key is generated, and the user prompted, only when the key file is missing; a failed `ssh-keygen` ends the run with status 1; only the two key files can change |
| KeyPair.EnsureKeyRecovery | restore_oxidized.py:69-76 | an existing key skips the step; otherwise the run goes on exactly when the user confirms and a public key exists, fresh or left from before; a failed `ssh-keygen` is only reported; every stop has status 1 |
| KeyPair.InstallKeyStable | install_oxidized.py:81 | after the installer's key step, a second run neither generates nor prompts |
| KeyPair.RecoveryKeyStable | restore_oxidized.py:69 | after a recovery key step that went through, the key exists exactly when it existed or was generated, and then the next run skips the step |
| Inventory.ColumnMapShape | install_oxidized.py:180-189 | the CSV `map` and `vars_map` name different keys and distinct columns below seven that cover all seven |
| Inventory.ReadRecord | install_oxidized.py:180-189 | a line reads as a record exactly when it has at least seven colon-separated fields |
| Inventory.ReadFormatted | install_oxidized.py:180-189 | a record written in the header's column order reads back field for field through the column map, provided no field holds `:` |
| Inventory.DelimiterInNameShifts | install_oxidized.py:180 | a name that holds `:` shifts the later columns, so the record read back is a different one |
| Inventory.HeaderIsComment | install_oxidized.py:198 | the header is one `#` comment line naming seven columns |
| Inventory.SampleDeviceLine | install_oxidized.py:199 | the sample record is the line `DUMMY_NODE:127.0.0.1:routeros:admin:admin:22:default` |
| Inventory.DefaultInventoryLines | install_oxidized.py:196-199 | the default `router.db` is a comment line and one record line that reads back as the sample device |
| Inventory.WriteDefaultInventory | install_oxidized.py:195-199 | `router.db` is written only when missing, and nothing else changes |
| Exporter.IntegratePrometheus | install_oxidized_exporter.py:57-74 | nothing happens without `prometheus.yml`; otherwise the job is appended exactly when the marker is absent, and Prometheus is restarted exactly then |
| Exporter.IntegrationOnce | install_oxidized_exporter.py:63-70 | afterwards the marker is present and the old content an exact prefix, so a second run changes nothing and restarts nothing |
| Install.AddRemote | install_oxidized.py:119 | `git remote add` succeeds exactly when the name is free |
| Install.SetRemoteUrl | install_oxidized.py:119 | `git remote set-url` succeeds exactly when the name exists |
| Install.AddOrSetOrigin | install_oxidized.py:119 | `add … \|\| set-url …` always leaves `origin` at the URL, keeps every other remote and adds none |
| Install.AddOrSetOriginIdempotent | install_oxidized.py:119 | the result does not depend on the earlier value of `origin`, and running it twice is running it once |
| Install.InitRepo | install_oxidized.py:107-116 | `git init` happens only where there is no repository, and keeps an existing one with its remotes |
| Install.InstallPathsDistinct | install_oxidized.py:58-97 | the account's SSH config, the private key, the public key, `config` and `router.db` are five pairwise different paths |
| Install.InstallFiles | install_oxidized.py:97-199 | the SSH config names the key, `config` holds the rendered configuration, an existing `router.db` and key are kept, and a missing `router.db` becomes the default; no other file changes |
| Install.InstallRepos | install_oxidized.py:107-119 | both repositories exist afterwards; `origin` is set to a non-empty URL, and without a URL the remotes are left alone; an existing `configs` repository keeps its remotes, and every other repository is unchanged, none added |
| Install.Install | install_oxidized.py:15-199 | the run ends, with status 1, exactly when the key is missing and `ssh-keygen` fails; a completed run has the key and both repositories, and changes no file besides the key pair, the account's SSH config, `config` and `router.db` |
| Install.InstallWritesFiles | install_oxidized.py:97-199 | a completed run leaves the stanza, the rendered configuration, and the previous `router.db` or else the default |
| Install.InstallSetsOrigin | install_oxidized.py:118-119 | a completed run points `origin` of `repo_sync` at the URL when there is one |
| Install.InstallRerunStable | install_oxidized.py:15-199 | a second run with the same inputs changes nothing: no new key, no second stanza, the same remote, the same device list |
| Recovery.FirstDir | restore_oxidized.py:144-145 | the position where `copy2` first meets a directory: every entry before it is a file, and the entry there, if any, is a directory |
| Recovery.CopyEntriesAsWritten | restore_oxidized.py:144-145 | the loop as written stops with status 1 exactly when the listing has a directory entry; its result is the corrected copy of the entries before the first directory (`FirstDir`), so the files copied before the stop are kept; nothing outside the entries' paths changes |
| Recovery.HookLayoutStops | restore_oxidized.py:144-145 | for the layout the installer's hook pushes (install_oxidized.py:127), one `default` directory, the loop as written stops without copying anything, while the corrected copy restores every file |
| Recovery.CopyEntry | restore_oxidized.py:145 | a copied entry is in place below the target, and only its own paths change |
| Recovery.CopyTree | restore_oxidized.py:144-145 | the corrected loop changes nothing outside the listed entries' paths |
| Recovery.CopyTreeRestoresAll | restore_oxidized.py:144-145 | with distinct names, every entry of the backup listing ends up in `configs`, overwriting by name |
| Recovery.OtherNamesKept | restore_oxidized.py:144-145 | a file in `configs` under a name the listing does not have is left unchanged |
| Recovery.AsWrittenAgreesOnFiles | restore_oxidized.py:144-145 | on a listing of plain files the loop as written and the corrected copy do the same |
| Recovery.CopyNamed | restore_oxidized.py:119 | `shutil.copy2` of a named file writes the target, and a missing source ends the run with status 1 |
| Recovery.RestoreBaseFiles | restore_oxidized.py:118-126 | `config` and `router.db` must be in the clone, else status 1; model files are copied only when the `model` directory exists; only those targets change |
| Recovery.RestoreScripts | restore_oxidized.py:129-130 | both scripts must be in the clone, else status 1; they land in the home directory |
| Recovery.RestoreSetup | restore_oxidized.py:115-130 | the setup step goes through exactly when the four named files are in the clone; only the four targets and the model files change, and only the four without a `model` directory |
| Recovery.RestoreSetupLands | restore_oxidized.py:119-130 | after the setup step the configuration, the device list and both scripts hold the clone's text |
| Recovery.RestoreSetupLandsModel | restore_oxidized.py:122-126 | with a `model` directory, every model file holds the clone's text under `model` |
| Recovery.ScriptsKeep | restore_oxidized.py:129-130 | copying the scripts into the home directory never overwrites a file of the base directory |
| Recovery.SetupStep | restore_oxidized.py:115-130 | the setup step is skipped without a `setup` directory and otherwise stops, with status 1, exactly when one of the four named files is missing |
| Recovery.RestoreSnapshot | restore_oxidized.py:115-145 | the script's copies go through exactly when the setup step does and the backup listing has no directory; every stop has status 1; a clone without `setup` and backups changes nothing |
| Recovery.RestoreSnapshotIntended | restore_oxidized.py:115-145 | with the backup loop corrected, the copies stop only in the setup step |
| Recovery.RecoveryDependencies | restore_oxidized.py:61-63 | the two `apt-get` list commands: a failing one is only reported, a missing program ends the run with status 1 |
| Recovery.Prepare | restore_oxidized.py:39-101 | the run reaches the copies exactly when there is a URL, both `apt-get` programs start, the key step passes and the clone succeeds; a missing URL or `apt-get` stops it with the files untouched |
| Recovery.Recover | restore_oxidized.py:39-145 | every way the script's run stops has status 1, and without a URL it stops before touching any file |
| Recovery.RecoverIntended | restore_oxidized.py:39-145 | the same for the run with the backup loop corrected |
| Recovery.CloneFailureCopiesNothing | restore_oxidized.py:99-101 | a failed clone ends the run with status 1 having changed at most the key pair and the SSH config |
| Recovery.SetupFileMissingStops | restore_oxidized.py:116-130 | a `setup` directory lacking one of the four named files ends the run with status 1 |
| Recovery.RecoverCompletesIff | restore_oxidized.py:39-145 | the script's run goes through exactly when it reaches the copies, a `setup` directory, if any, holds the four named files, and the backup listing has no directory; otherwise it stops with status 1 |
| Recovery.RecoverIntendedCompletesIff | restore_oxidized.py:39-145 | the corrected run goes through exactly when it reaches the copies and a `setup` directory, if any, holds the four named files |
| Recovery.RecoverStopsOnBackupDirectory | restore_oxidized.py:144-145 | a directory in the backup listing, such as the hook's `default` (install_oxidized.py:127), ends the script's run with status 1 where the corrected run goes through |
| Recovery.RecoverAgreesWithIntended | restore_oxidized.py:144-145 | without a directory in the backup listing the script's run and the corrected run leave the same result |
| Recovery.RecoverIntendedRestoresBackups | restore_oxidized.py:134-145 | a completed corrected run leaves every backup entry, directories included, in `configs` under the base directory |
| Recovery.RecoverRestoresBackups | restore_oxidized.py:134-145 | a completed run of the script leaves every backup file in `configs` under the base directory |

## Left out

- Package installation, `gem`, `wget`, `systemctl`, `chown` and `chmod` have no effect on the modelled state.
- Install.Install: apart from `ssh-keygen`, every command of the installer is assumed to succeed, although `executar_comando` ends the script with status 1 on any failure (install_oxidized.py:7-13). This covers `apt-get` and `gem` (36-46), `chown` and `chmod` (61, 95, 103-104, 115), the `git init`, `git config` and `git remote` of the two repositories (108-119), and `systemctl` and `rm` (221-228).
- In the recovery script, the commands given as shell strings always start. Except for two, their failures are only reported and the model ignores them. The exceptions are `ssh-keygen`, whose outcome decides the key step (`KeyPair.EnsureKeyRecovery`), and `git clone`, whose failure ends the run with status 1 (restore_oxidized.py:99-101, `Recovery.Prepare`). The two `apt-get` commands are given as lists; a missing program ends the run, and that is modelled in `Recovery.RecoveryDependencies`.
- The root check at install_oxidized_exporter.py:16-18, the `.deb` download and the exporter's systemd unit (install_oxidized_exporter.py:20-54, 76-78) are out of scope: they are plumbing with no logic of their own.
- The Oxidized YAML configuration and the systemd unit text (install_oxidized.py:141-190, 202-222) are not modelled. The rendered configuration is a parameter of the installer run; only its column map is modelled, in `Inventory`.
- The synchronisation hook's shell text (install_oxidized.py:122-139) is not executed by Python and is not modelled. Only the layout it pushes, every device file moved into `default/`, enters `Recovery.HookLayoutStops`.
- The installer's removal of `/root/.config/oxidized` (install_oxidized.py:225-226) is not modelled. When the target user is root this is the recovery base directory, so the installer called from a recovery run would wipe it before the copies.
- The wipe of the scratch clone `/tmp/oxidized_recovery` (restore_oxidized.py:95-96) is not modelled. The clone is the snapshot the environment returns for the URL, or a failure when it has none.
- Recovery.Recover: the recovery script's call of the installer between the clone and the copies (restore_oxidized.py:105-108) is not composed with the installer model; the installer's run is modelled on its own in `Install`. That call changes more than `/opt/oxidized`. It runs under `sudo` from the root process, so `SUDO_USER` is `root`, and the installer picks the first user in `/home`, or root (install_oxidized.py:17-26). It appends its stanza to that account's `~/.ssh/config`, which is the file the recovery run edits only when the recovery works for the same account. When the recovery's account is root, the installer's removal of `/root/.config/oxidized` (install_oxidized.py:225-226) also wipes the recovery base directory. `Recovery.Recover` shows neither effect. A failure of that call is only reported, so the run goes on either way.
- The `git init`, `add` and `commit` of the restored `configs` (restore_oxidized.py:139-142, 148-151) are not modelled; their outcomes are ignored by the script.
- Directories nested more than one level inside the backup listing are not modelled: an entry is a file or a directory of files. A sub-directory in the clone's `model` directory is not modelled either.
- The order of `os.listdir` is taken as given, as the sequence the environment supplies.
- Whitespace is `str.isspace` on single code points. Unicode beyond that (normalisation, case) does not arise in the scripts.
- `os.path.join` is modelled for two relative components; an absolute second component, which would discard the first, never occurs in the scripts.
- Commands.RunCommand: a command given as a shell string always starts, since `sh` is found. Only a list command whose program is missing escapes the wrapper, as `FileNotFoundError`.
- Inventory.ReadRecord: this is how the model reads Oxidized's CSV source through the column map. Oxidized's own parser is not part of this model.
- GitHubUrl.NormalizeAsWritten: its contract states only the shape of the rewritten URL. The exact result is in `GitHubUrl.NormalizeAsWrittenRewrites`.
- Recovery.Recover: its contract states only the exit status and the early URL failure. When a run completes is stated in `Recovery.RecoverCompletesIff`, and what it leaves in `Recovery.RecoverRestoresBackups`, `Recovery.RecoverStopsOnBackupDirectory`, `Recovery.CloneFailureCopiesNothing` and `Recovery.SetupFileMissingStops`.

Where the scripts and their documentation differ, the model follows the scripts:

- The recovery script performs no path rewriting beyond the URL rewrite.
- End of input at its URL prompt ends the run with status 1, whereas the installer reads it as an empty URL.
- The recovery script's key confirmation prompt (restore_oxidized.py:76) is not guarded against end of input.

## Findings

| source | as written | input that shows it | evidently intended | confidence | as-written member | corrected member |
|---|---|---|---|---|---|---|
| install_oxidized.py:76 | `.replace(".git", "")` removes `.git` anywhere in the repository path (also restore_oxidized.py:56) | `https://github.com/acme/acme.github.io` becomes `git@github.com:acme/acmehub.io.git` | strip only a trailing `.git` | not executed, high | GitHubUrl.AsWrittenMangles | GitHubUrl.IntendedKeepsPagesName |
| restore_oxidized.py:144-145 | `shutil.copy2` on every entry of `equipamentos_configuracao`, directories included | the layout pushed by the hook at install_oxidized.py:127: one directory `default/` holding the device files; `copy2` raises on it and the run ends with status 1, nothing restored | copy directories as trees (`shutil.copytree`), restoring every device file | not executed, medium | Recovery.HookLayoutStops | Recovery.RecoverIntendedRestoresBackups |

=== FILE: base.dfy ===
/** Small failure-carrying datatypes shared by every module of the model. */
module Base {

  /** A value that may be missing: `None` stands for Python's `None` or for
      end of input at a prompt. */
  datatype Option<+T> = None | Some(value: T)

  /** The outcome of a step that either yields a value or ends the whole
      process with an exit status (`sys.exit(n)` or an uncaught exception). */
  datatype Result<+T> = Ok(value: T) | Exit(status: int)

  /** A step of a run that keeps its effects when it ends the process: the
      run goes on with `value`, or stops with `status` after having produced
      `value` (an uncaught exception half-way through leaves the files
      already written). */
  datatype Progress<+T> = Running(value: T) | Stopped(value: T, status: int)
}

=== FILE: commands.dfy ===
/** The two wrappers the scripts put around `subprocess.run(..., check=True)`.
    A command is not run here: its outcome is an input. */
module Commands {
  import opened Base

  /** What became of a command: it ran and exited with `code` (a signal shows
      as a negative code), or its program could not be started at all, which
      `subprocess.run` reports as `FileNotFoundError`. A command given as a
      shell string always starts, since `sh` itself is found. */
  datatype Process = Exited(code: int) | Missing

  /** `run_command` of the recovery script and of the exporter installer:
      `true` for exit code 0, `false` for any other code (the caught
      `CalledProcessError`). The wrapper catches nothing else, so a program
      that cannot be started ends the whole script with status 1. */
  function RunCommand(p: Process): (r: Result<bool>)
    ensures r.Exit? <==> p.Missing?
    ensures r.Exit? ==> r.status == 1
    ensures r.Ok? ==> (r.value <==> p.code == 0)
  {
    match p
    case Missing => Exit(1)
    case Exited(code) => Ok(code == 0)
  }

  /** `executar_comando` of the installer: any failure ends the script with
      status 1, whatever code the command itself returned. */
  function InstallCommand(p: Process): (r: Result<()>)
    ensures r.Ok? <==> p == Exited(0)
    ensures r.Exit? ==> r.status == 1
  {
    if p == Exited(0) then Ok(()) else Exit(1)
  }

  /** The two wrappers agree on what success is; where the recovery wrapper
      reports a failed command and carries on, the installer stops, and its
      status never carries the command's own code. */
  lemma WrappersAgree(p: Process)
    ensures p.Exited? ==> RunCommand(p) == Ok(InstallCommand(p).Ok?)
    ensures p.Missing? ==> RunCommand(p) == Exit(1) && InstallCommand(p) == Exit(1)
    ensures p.Exited? && p.code != 0 ==> InstallCommand(p) == Exit(1) && RunCommand(p) == Ok(false)
  {
  }
}

=== FILE: exporter.dfy ===
/** The exporter installer's integration with a local Prometheus: a scrape
    job for the exporter is appended to `prometheus.yml` unless the file
    already names a job `oxidized`, and Prometheus is restarted only then. */
module Exporter {
  import opened Text
  import opened Files
  import opened GuardedAppend

  const PrometheusConfig: Path := "/etc/prometheus/prometheus.yml"
  const JobMarker: string := "job_name: 'oxidized'"

  const JobHead: string := "\n  - "
  const JobTail: string := "\n    static_configs:\n      - targets: ['localhost:8080']\n"

  /** The appended scrape job: one list item naming the job and the
      exporter's metrics address. */
  const ScrapeJob: string := JobHead + JobMarker + JobTail

  /** The state after the Prometheus step: the filesystem and whether
      `systemctl restart prometheus` was run. */
  datatype Integration = Integration(fs: FileSystem, restarted: bool)

  lemma ScrapeJobCarriesMarker()
    ensures Contains(ScrapeJob, JobMarker)
  {
    ContainsMiddle(JobHead, JobMarker, JobTail);
  }

  /** The step as the installer runs it. A missing configuration means no
      Prometheus here: nothing is written and nothing restarted. Otherwise the
      job is appended when the marker is absent, and Prometheus restarted on
      that branch only. The restart goes through `run_command`, whose answer
      is not looked at; `systemctl` has already run earlier in the script, so
      it cannot be missing here. */
  function IntegratePrometheus(fs: FileSystem): (r: Integration)
    ensures PrometheusConfig !in fs ==> r == Integration(fs, false)
    ensures r.restarted <==> PrometheusConfig in fs && !Contains(fs[PrometheusConfig], JobMarker)
    ensures r.restarted ==> r.fs == fs[PrometheusConfig := fs[PrometheusConfig] + ScrapeJob]
    ensures !r.restarted ==> r.fs == fs
  {
    if PrometheusConfig !in fs then Integration(fs, false)
    else
      var u := AppendUnlessPresent(fs, PrometheusConfig, JobMarker, ScrapeJob);
      Integration(u.fs, u.changed)
  }

  /** After the step the file holds the marker, so a second run changes
      nothing and restarts nothing; and the old content is kept as an exact
      prefix. */
  lemma IntegrationOnce(fs: FileSystem)
    ensures var r := IntegratePrometheus(fs);
            PrometheusConfig in fs ==> PrometheusConfig in r.fs && Contains(r.fs[PrometheusConfig], JobMarker)
                                       && fs[PrometheusConfig] <= r.fs[PrometheusConfig]
    ensures var r := IntegratePrometheus(fs);
            IntegratePrometheus(r.fs) == Integration(r.fs, false)
  {
    ScrapeJobCarriesMarker();
    if PrometheusConfig in fs && !Contains(fs[PrometheusConfig], JobMarker) {
      var content := fs[PrometheusConfig] + ScrapeJob;
      ContainsExtend(fs[PrometheusConfig], ScrapeJob, "", JobMarker);
      assert fs[PrometheusConfig] + ScrapeJob + "" == content;
    }
  }
}

=== FILE: files.dfy ===
/** The filesystem as the scripts touch it: the text of every regular file,
    keyed by absolute path, plus the path arithmetic of `os.path.join`. */
module Files {
  import opened Text

  type Path = string

  /** A directory entry name as `os.listdir` returns it: never empty and
      never containing `/`. */
  predicate IsEntryName(n: string)
  {
    n != "" && '/' !in n
  }

  type Name = n: string | IsEntryName(n) witness "x"

  /** Regular files by absolute path; directories are implied by the paths. */
  type FileSystem = map<Path, string>

  /** Python's two-argument `os.path.join`: an absolute second part replaces
      the first, otherwise the parts are glued with one `/` unless the first
      is empty or already ends in `/`. */
  function Join(a: Path, b: Path): Path
  {
    if |b| > 0 && b[0] == '/' then b
    else if a == "" || a[|a| - 1] == '/' then a + b
    else a + "/" + b
  }

  /** The separator `Join` puts between a directory and a relative part. */
  function Glue(dir: Path): string
  {
    if dir == "" || dir[|dir| - 1] == '/' then "" else "/"
  }

  /** Joining an entry name appends it after the glue. */
  lemma JoinName(dir: Path, n: Name)
    ensures Join(dir, n) == dir + Glue(dir) + n
    ensures Glue(Join(dir, n)) == "/"
  {
    assert n[0] != '/' by { assert n[0] in n; }
    var r := dir + Glue(dir) + n;
    assert r[|r| - 1] == n[|n| - 1];
    assert n[|n| - 1] != '/' by { assert n[|n| - 1] in n; }
  }

  /** Two levels below a directory, the two names are glued by one `/`. */
  lemma JoinTwoForm(dir: Path, a: Name, f: Name)
    ensures Join(Join(dir, a), f) == dir + Glue(dir) + (a + "/" + f)
  {
    JoinName(dir, a);
    JoinName(Join(dir, a), f);
    assert (dir + Glue(dir) + a) + "/" + f == dir + Glue(dir) + (a + "/" + f);
  }

  /** Distinct entry names inside one directory give distinct paths. */
  lemma JoinInjective(dir: Path, m: Name, n: Name)
    ensures Join(dir, m) == Join(dir, n) ==> m == n
  {
    JoinName(dir, m);
    JoinName(dir, n);
    if Join(dir, m) == Join(dir, n) {
      assert m == Join(dir, m)[|dir + Glue(dir)|..];
    }
  }

  /** A path one level below `dir` is never a path two levels below it. */
  lemma JoinDepthDiffers(dir: Path, a: Name, b: Name, f: Name)
    ensures Join(dir, a) != Join(Join(dir, b), f)
  {
    JoinName(dir, a);
    JoinName(dir, b);
    JoinName(Join(dir, b), f);
    var pre := dir + Glue(dir);
    var shallow := Join(dir, a);
    var deep := Join(Join(dir, b), f);
    assert deep == pre + (b + "/" + f);
    assert deep[|pre| + |b|] == '/';
    assert forall i :: 0 <= i < |a| ==> a[i] != '/';
    assert forall i :: |pre| <= i < |shallow| ==> shallow[i] == a[i - |pre|];
  }

  /** The first `/` splits a path into the same two names. */
  lemma SlashSplitUnique(a: Name, f: Name, b: Name, g: Name)
    requires a + "/" + f == b + "/" + g
    ensures a == b && f == g
  {
    var x := a + "/" + f;
    assert forall i :: 0 <= i < |a| ==> x[i] == a[i] && a[i] != '/';
    assert forall i :: 0 <= i < |b| ==> x[i] == b[i] && b[i] != '/';
    assert x[|a|] == '/' && x[|b|] == '/';
    assert |a| == |b|;
    assert a == x[..|a|] && b == x[..|b|];
    assert f == x[|a| + 1..] && g == x[|b| + 1..];
  }

  /** Two levels below `dir`, equal paths have equal parts. */
  lemma JoinTwoInjective(dir: Path, a: Name, f: Name, b: Name, g: Name)
    ensures Join(Join(dir, a), f) == Join(Join(dir, b), g) ==> a == b && f == g
  {
    JoinName(dir, a);
    JoinName(dir, b);
    JoinName(Join(dir, a), f);
    JoinName(Join(dir, b), g);
    var pre := dir + Glue(dir);
    assert Join(Join(dir, a), f) == pre + (a + "/" + f);
    assert Join(Join(dir, b), g) == pre + (b + "/" + g);
    if Join(Join(dir, a), f) == Join(Join(dir, b), g) {
      assert a + "/" + f == (pre + (a + "/" + f))[|pre|..];
      assert b + "/" + g == (pre + (b + "/" + g))[|pre|..];
      SlashSplitUnique(a, f, b, g);
    }
  }

  /** What a read of `p` sees when it exists, and the empty text otherwise. */
  function ContentOr(fs: FileSystem, p: Path): string
  {
    if p in fs then fs[p] else ""
  }

  /** `fs` and `r` agree on every path outside `touched`. */
  ghost predicate SameExcept(fs: FileSystem, r: FileSystem, touched: set<Path>)
  {
    forall q :: q !in touched ==> (q in r <==> q in fs) && (q in fs ==> r[q] == fs[q])
  }

  /** A directory is a prefix of every entry joined to it. */
  lemma JoinExtends(dir: Path, n: Name)
    ensures dir <= Join(dir, n)
  {
    JoinName(dir, n);
  }

  /** Two steps that each touch only their own paths touch only the union. */
  lemma SameExceptChain(a: FileSystem, b: FileSystem, c: FileSystem, s: set<Path>, t: set<Path>)
    requires SameExcept(a, b, s) && SameExcept(b, c, t)
    ensures SameExcept(a, c, s + t)
  {
  }

  /** `open(p, "a").write(text)`: creates the file when it is missing. */
  function Append(fs: FileSystem, p: Path, text: string): (r: FileSystem)
    ensures p in r && ContentOr(fs, p) <= r[p]
    ensures r[p][|ContentOr(fs, p)|..] == text
    ensures SameExcept(fs, r, {p})
  {
    fs[p := ContentOr(fs, p) + text]
  }

  /** `if not os.path.exists(p): open(p, "w").write(text)`. */
  function WriteIfAbsent(fs: FileSystem, p: Path, text: string): (r: FileSystem)
    ensures p in r
    ensures p in fs ==> r == fs
    ensures p !in fs ==> r[p] == text
    ensures SameExcept(fs, r, {p})
  {
    if p in fs then fs else fs[p := text]
  }

  /** Writing only when absent is idempotent and never replaces a file. */
  lemma WriteIfAbsentIdempotent(fs: FileSystem, p: Path, text: string, other: string)
    ensures WriteIfAbsent(WriteIfAbsent(fs, p, text), p, other) == WriteIfAbsent(fs, p, text)
  {
  }

  /** `shutil.copy2` of every file of a directory listing into `dir`, by name. */
  function CopyAll(fs: FileSystem, dir: Path, files: map<Name, string>): (r: FileSystem)
    ensures forall n :: n in files ==> Join(dir, n) in r && r[Join(dir, n)] == files[n]
    ensures SameExcept(fs, r, set n | n in files :: Join(dir, n))
  {
    forall m: Name, n: Name ensures Join(dir, m) == Join(dir, n) ==> m == n {
      JoinInjective(dir, m, n);
    }
    var copied := map n | n in files :: Join(dir, n) := files[n];
    assert copied.Keys == set n | n in files :: Join(dir, n);
    OverrideTouchesKeys(fs, copied);
    fs + copied
  }

  /** Overriding with a map changes the paths of its domain only. */
  lemma OverrideTouchesKeys(fs: FileSystem, m: FileSystem)
    ensures SameExcept(fs, fs + m, m.Keys)
  {
  }
}

=== FILE: github_url.dfy ===
/** The remote URL of the mirror repository: how both scripts obtain it from
    the command line or a prompt, and how an HTTPS-style GitHub address is
    rewritten into the SSH form `git@github.com:owner/repo.git` that key-based
    access needs. */
module GitHubUrl {
  import opened Base
  import opened Text

  const HostPath: string := "github.com/"
  const SshMarker: string := "git@"
  const SshPrefix: string := "git@github.com:"
  const GitSuffix: string := ".git"

  /** The rewrite applies to a URL that names `github.com/` and is not
      already in SSH form. */
  predicate NeedsRewrite(url: string)
  {
    Contains(url, HostPath) && !Contains(url, SshMarker)
  }

  /** `url.split("github.com/")[-1]`. */
  function RepoPath(url: string): string
  {
    Last(Split(url, HostPath))
  }

  /** The rewrite as the scripts write it: the text after the last
      `github.com/`, with `.replace(".git", "")` applied, between the SSH
      prefix and `.git`. Removes `.git` wherever it occurs in the path. */
  function NormalizeAsWritten(url: string): (r: string)
    ensures NeedsRewrite(url) ==> SshPrefix <= r && IsSuffixOf(GitSuffix, r)
    ensures !NeedsRewrite(url) ==> r == url
  {
    if NeedsRewrite(url) then SshPrefix + ReplaceAll(RepoPath(url), GitSuffix, "") + GitSuffix else url
  }

  /** The repository path without one trailing `.git`. */
  function DropGitSuffix(path: string): (q: string)
    ensures path == q + GitSuffix || (path == q && !IsSuffixOf(GitSuffix, path))
  {
    if IsSuffixOf(GitSuffix, path) then path[..|path| - |GitSuffix|] else path
  }

  /** The rewrite as evidently intended: the repository path is kept verbatim
      and `.git` is added unless it already ends the path. */
  function Normalize(url: string): (r: string)
    ensures NeedsRewrite(url) ==> SshPrefix <= r && IsSuffixOf(GitSuffix, r)
    ensures !NeedsRewrite(url) ==> r == url
  {
    if NeedsRewrite(url) then SshPrefix + DropGitSuffix(RepoPath(url)) + GitSuffix else url
  }

  lemma HostPathNoSelfOverlap()
    ensures NoSelfOverlap(HostPath)
  {
    forall k | 0 < k < |HostPath|
      ensures HostPath[k..] != HostPath[..|HostPath| - k]
    {
      assert HostPath[k..][0] == HostPath[k] != 'g';
      assert HostPath[..|HostPath| - k][0] == 'g';
    }
  }

  /** The repository path is the text after the final `github.com/`. */
  lemma RepoPathIsTail(a: string, p: string)
    requires !Contains(p, HostPath)
    ensures RepoPath(a + HostPath + p) == p
  {
    HostPathNoSelfOverlap();
    SplitLastAfter(a, HostPath, p);
  }

  /** The piece after the last `github.com/` never contains `github.com/`, and
      the URL is that piece preceded by `github.com/` whenever it needs the
      rewrite. */
  lemma RepoPathShape(url: string)
    ensures !Contains(RepoPath(url), HostPath)
    ensures Contains(url, HostPath) ==> IsSuffixOf(HostPath + RepoPath(url), url)
  {
    var parts := Split(url, HostPath);
    SplitPiecesFree(url, HostPath);
    SplitJoin(url, HostPath);
    assert |parts| == 1 ==> url == parts[0];
    if Contains(url, HostPath) {
      JoinWithLast(parts, HostPath);
    }
  }

  /** For at least two pieces, the joined text ends with the separator and the
      last piece. */
  lemma {:induction false} JoinWithLast(parts: seq<string>, sep: string)
    requires |parts| >= 2
    ensures IsSuffixOf(sep + Last(parts), JoinWith(parts, sep))
    decreases |parts|
  {
    var rest := parts[1..];
    assert JoinWith(parts, sep) == parts[0] + (sep + JoinWith(rest, sep));
    if |parts| > 2 {
      JoinWithLast(rest, sep);
      assert Last(rest) == Last(parts);
      SuffixExtend(sep + Last(parts), sep, JoinWith(rest, sep));
    } else {
      assert JoinWith(rest, sep) == Last(parts);
      SuffixOfAppend([], sep + Last(parts));
    }
    SuffixExtend(sep + Last(parts), parts[0], sep + JoinWith(rest, sep));
  }

  /** The rewrite the scripts perform: for a URL `a + "github.com/" + p` with no
      later `github.com/` and no `git@`, the result is the SSH prefix, `p` with
      every `.git` occurrence removed, and `.git`. */
  lemma NormalizeAsWrittenRewrites(a: string, p: string)
    requires !Contains(p, HostPath)
    requires !Contains(a + HostPath + p, SshMarker)
    ensures NormalizeAsWritten(a + HostPath + p) == SshPrefix + ReplaceAll(p, GitSuffix, "") + GitSuffix
  {
    ContainsMiddle(a, HostPath, p);
    RepoPathIsTail(a, p);
  }

  /** The intended rewrite: the SSH prefix, the repository path verbatim, and a
      single `.git`, added only when the path does not already end with it. */
  lemma NormalizeKeepsRepoPath(a: string, p: string)
    requires !Contains(p, HostPath)
    requires !Contains(a + HostPath + p, SshMarker)
    ensures Normalize(a + HostPath + p) == SshPrefix + p + (if IsSuffixOf(GitSuffix, p) then "" else GitSuffix)
  {
    ContainsMiddle(a, HostPath, p);
    RepoPathIsTail(a, p);
  }

  /** A URL in SSH form is never touched again: the rewrite is idempotent. */
  lemma NormalizeIdempotent(url: string)
    ensures Normalize(Normalize(url)) == Normalize(url)
    ensures NormalizeAsWritten(NormalizeAsWritten(url)) == NormalizeAsWritten(url)
  {
    if NeedsRewrite(url) {
      var r := Normalize(url);
      assert r[..|SshMarker|] == SshMarker by { assert r[..|SshMarker|] == r[..|SshPrefix|][..|SshMarker|]; }
      ContainsAt(r, SshMarker, 0);
      var w := NormalizeAsWritten(url);
      assert w[..|SshMarker|] == SshMarker by { assert w[..|SshMarker|] == w[..|SshPrefix|][..|SshMarker|]; }
      ContainsAt(w, SshMarker, 0);
    }
  }

  /** The URL `prefix + "github.com/" + owner + "/" + rest` qualifies for the
      rewrite with `owner/rest` as its repository path. */
  lemma OwnerUrlFacts(prefix: string, owner: string, rest: string)
    requires '.' !in prefix && '@' !in prefix
    requires '.' !in owner && '/' !in owner && '@' !in owner
    requires '/' !in rest && '@' !in rest
    ensures !Contains(owner + "/" + rest, HostPath)
    ensures !Contains(prefix + HostPath + (owner + "/" + rest), SshMarker)
  {
    ContainsSkipTailless(owner + "/", rest, HostPath);
    MissingCharNoContain(owner + "/", HostPath, '.');
    MissingCharNoContain(prefix + HostPath + (owner + "/" + rest), SshMarker, '@');
  }

  /** `.replace(".git", "")` removes a `.git` that follows dot-free text and
      precedes dot-free text and a short tail. */
  lemma {:induction false} ReplaceDropsInfix(a: string, b: string, c: string)
    requires '.' !in a && '.' !in b && |c| < |GitSuffix|
    ensures ReplaceAll(a + GitSuffix + b + c, GitSuffix, "") == a + b + c
  {
    assert a + GitSuffix + b + c == a + (GitSuffix + (b + c));
    ReplaceSkipHeadless(a, GitSuffix + (b + c), GitSuffix, "");
    ReplaceAtHead(GitSuffix, b + c, "");
    ReplaceSkipHeadless(b, c, GitSuffix, "");
    assert a + ("" + (b + c)) == a + b + c;
  }

  /** `.replace(".git", "")` on `a + ".github.io"` keeps only `a + "hub.io"`. */
  lemma ReplacePagesSuffix(a: string)
    requires '.' !in a
    ensures ReplaceAll(a + ".github.io", GitSuffix, "") == a + "hub.io"
  {
    var hub, io := "hub", ".io";
    assert a + ".github.io" == a + GitSuffix + hub + io;
    assert a + "hub.io" == a + hub + io;
    ReplaceDropsInfix(a, hub, io);
  }

  /** The source's rewrite damages the name of a GitHub Pages repository
      `owner.github.io`: the `.git` inside `.github.io` is removed too, so
      `https://github.com/acme/acme.github.io` becomes
      `git@github.com:acme/acmehub.io.git`. */
  lemma AsWrittenMangles(owner: string)
    requires '.' !in owner && '/' !in owner && '@' !in owner
    ensures NormalizeAsWritten("https://" + HostPath + (owner + "/" + owner + ".github.io"))
         == SshPrefix + (owner + "/" + owner + "hub.io") + GitSuffix
  {
    var a := owner + "/" + owner;
    OwnerUrlFacts("https://", owner, owner + ".github.io");
    assert owner + "/" + (owner + ".github.io") == a + ".github.io";
    NormalizeAsWrittenRewrites("https://", a + ".github.io");
    ReplacePagesSuffix(a);
  }

  /** The intended rewrite keeps the same repository name intact. */
  lemma IntendedKeepsPagesName(owner: string)
    requires '.' !in owner && '/' !in owner && '@' !in owner
    ensures Normalize("https://" + HostPath + (owner + "/" + owner + ".github.io"))
         == SshPrefix + (owner + "/" + owner + ".github.io") + GitSuffix
  {
    var p := owner + "/" + owner + ".github.io";
    OwnerUrlFacts("https://", owner, owner + ".github.io");
    assert owner + "/" + (owner + ".github.io") == p;
    NormalizeKeepsRepoPath("https://", p);
    assert p[|p| - 1] == 'o';
    GitSuffixEndsInT(p);
  }

  /** A path ending with `.git` ends with `t`. */
  lemma GitSuffixEndsInT(p: string)
    ensures IsSuffixOf(GitSuffix, p) ==> p[|p| - 1] == 't'
  {
    if IsSuffixOf(GitSuffix, p) {
      assert p[|p| - 1] == p[|p| - |GitSuffix|..][3];
    }
  }

  /** The usage form `https://github.com/owner/repo` (or without the scheme)
      becomes `git@github.com:owner/repo.git` under both rewrites. */
  lemma UsageFormPlain(prefix: string, owner: string, repo: string)
    requires '.' !in prefix && '@' !in prefix
    requires '.' !in owner && '/' !in owner && '@' !in owner
    requires '.' !in repo && '/' !in repo && '@' !in repo
    ensures Normalize(prefix + HostPath + (owner + "/" + repo)) == SshPrefix + (owner + "/" + repo) + GitSuffix
    ensures NormalizeAsWritten(prefix + HostPath + (owner + "/" + repo)) == SshPrefix + (owner + "/" + repo) + GitSuffix
  {
    var p := owner + "/" + repo;
    OwnerUrlFacts(prefix, owner, repo);
    NoDotNoGitSuffix(p);
    NormalizeKeepsRepoPath(prefix, p);
    NormalizeAsWrittenRewrites(prefix, p);
    MissingCharNoContain(p, GitSuffix, '.');
    ReplaceAbsent(p, GitSuffix, "");
  }

  /** The usage form `https://github.com/owner/repo.git` gets no second
      `.git` from the intended rewrite. */
  lemma UsageFormWithSuffix(prefix: string, owner: string, repo: string)
    requires '.' !in prefix && '@' !in prefix
    requires '.' !in owner && '/' !in owner && '@' !in owner
    requires '.' !in repo && '/' !in repo && '@' !in repo
    ensures Normalize(prefix + HostPath + (owner + "/" + repo + GitSuffix)) == SshPrefix + (owner + "/" + repo) + GitSuffix
  {
    var p := owner + "/" + repo;
    var q := p + GitSuffix;
    OwnerUrlFacts(prefix, owner, repo + GitSuffix);
    assert owner + "/" + (repo + GitSuffix) == q;
    ContainsMiddle(prefix, HostPath, q);
    RepoPathIsTail(prefix, q);
    DropAppendedSuffix(p);
  }

  /** `DropGitSuffix` undoes appending `.git`. */
  lemma DropAppendedSuffix(p: string)
    ensures DropGitSuffix(p + GitSuffix) == p
  {
    var q := p + GitSuffix;
    SuffixOfAppend(p, GitSuffix);
    assert q[..|q| - |GitSuffix|] == p;
  }

  /** A path without `.` does not end with `.git`. */
  lemma NoDotNoGitSuffix(p: string)
    requires '.' !in p
    ensures !IsSuffixOf(GitSuffix, p)
  {
    if |p| >= 4 { assert p[|p| - 4..][0] == p[|p| - 4]; }
  }

  /** An address already in SSH form is returned unchanged by both rewrites. */
  lemma SshFormUnchanged(path: string)
    ensures Normalize(SshPrefix + path) == SshPrefix + path
    ensures NormalizeAsWritten(SshPrefix + path) == SshPrefix + path
  {
    var ssh := SshPrefix + path;
    assert ssh[..4] == SshMarker;
    ContainsAt(ssh, SshMarker, 0);
  }

  // ---------------------------------------------------------------- acquisition

  /** `sys.argv[1].strip()` when an argument was given, and "" otherwise. */
  function ArgumentUrl(argv: seq<string>): string
  {
    if |argv| > 1 then Strip(argv[1]) else ""
  }

  /** The installer's URL: the stripped argument, else the stripped line typed
      at the prompt, where end of input reads as "", then rewritten as the
      script writes the rewrite. `prompt` is the line read, `None` for end of
      input. */
  function InstallUrl(argv: seq<string>, prompt: Option<string>): (url: string)
    ensures url == "" <==> ArgumentUrl(argv) == "" && (prompt.None? || Strip(prompt.value) == "")
  {
    var fromArgument := ArgumentUrl(argv);
    var raw := if fromArgument != "" then fromArgument
               else match prompt
                    case Some(line) => Strip(line)
                    case None => "";
    if raw != "" then NormalizeAsWritten(raw) else raw
  }

  /** The recovery script's URL: as for the installer, except that end of
      input at the prompt and an empty result both end the run with status 1. */
  function RecoveryUrl(argv: seq<string>, prompt: Option<string>): (r: Result<string>)
    ensures r.Exit? ==> r.status == 1
    ensures r.Ok? ==> r.value != ""
  {
    var fromArgument := ArgumentUrl(argv);
    if fromArgument == "" && prompt.None? then Exit(1)
    else
      var raw := if fromArgument != "" then fromArgument else Strip(prompt.value);
      if raw == "" then Exit(1) else Ok(NormalizeAsWritten(raw))
  }

  /** A non-empty argument decides the URL: the prompt is never consulted. */
  lemma ArgumentWins(argv: seq<string>, p1: Option<string>, p2: Option<string>)
    requires ArgumentUrl(argv) != ""
    ensures InstallUrl(argv, p1) == InstallUrl(argv, p2) == NormalizeAsWritten(ArgumentUrl(argv))
    ensures RecoveryUrl(argv, p1) == RecoveryUrl(argv, p2) == Ok(NormalizeAsWritten(ArgumentUrl(argv)))
  {
  }

  /** Without an argument the line typed at the prompt decides: stripped and
      rewritten for both scripts; blank, it leaves the installer without a URL
      and ends the recovery run with status 1. */
  lemma PromptDecidesWithoutArgument(argv: seq<string>, line: string)
    requires ArgumentUrl(argv) == ""
    ensures InstallUrl(argv, Some(line)) == NormalizeAsWritten(Strip(line))
    ensures Strip(line) == "" ==> RecoveryUrl(argv, Some(line)) == Exit(1)
    ensures Strip(line) != "" ==> RecoveryUrl(argv, Some(line)) == Ok(NormalizeAsWritten(Strip(line)))
  {
    ShortDoesNotContain("", HostPath);
  }

  /** Without an argument, end of input at the prompt leaves the installer
      without a URL and ends the recovery run with status 1. */
  lemma EndOfInputWithoutArgument(argv: seq<string>)
    requires ArgumentUrl(argv) == ""
    ensures InstallUrl(argv, None) == ""
    ensures RecoveryUrl(argv, None) == Exit(1)
  {
  }

  /** Recovery succeeds exactly when the installer would obtain a non-empty
      URL from the same inputs, and then both use the same URL. */
  lemma RecoveryAgreesWithInstall(argv: seq<string>, prompt: Option<string>)
    ensures RecoveryUrl(argv, prompt).Ok? <==> InstallUrl(argv, prompt) != ""
    ensures RecoveryUrl(argv, prompt).Ok? ==> RecoveryUrl(argv, prompt).value == InstallUrl(argv, prompt)
  {
  }
}

=== FILE: guarded_append.dfy ===
/** The "check, then append" idiom the scripts use for the SSH client
    configuration and for the Prometheus scrape configuration: append a block
    of text to a file unless the file already contains a marker string.
    The test for the marker is plain substring containment, not a parse of the file. */
module GuardedAppend {
  import opened Text
  import opened Files

  /** A filesystem after a step, and whether the step wrote anything (the
      scripts run follow-up commands such as `chmod` or a service restart
      only when it did). */
  datatype Update = Update(fs: FileSystem, changed: bool)

  /** Append `text` to `path` unless the file exists and contains `marker`.
      A missing file is created, as `open(path, "a")` does. */
  function AppendUnlessPresent(fs: FileSystem, path: Path, marker: string, text: string): (u: Update)
    ensures path in u.fs
    ensures u.changed <==> !(path in fs && Contains(fs[path], marker))
    ensures u.fs[path] == ContentOr(fs, path) + (if u.changed then text else "")
    ensures SameExcept(fs, u.fs, {path})
    ensures Contains(text, marker) ==> Contains(u.fs[path], marker)
  {
    if path in fs && Contains(fs[path], marker) then
      Update(fs, false)
    else
      var r := Append(fs, path, text);
      assert r[path] == ContentOr(fs, path) + text;
      if Contains(text, marker) then
        ContainsExtend(ContentOr(fs, path), text, "", marker);
        assert ContentOr(fs, path) + text + "" == r[path];
        Update(r, true)
      else
        Update(r, true)
  }

  /** When the appended block carries its own marker, a second application
      finds it and changes nothing: the block is appended at most once. */
  lemma AppendUnlessPresentIdempotent(fs: FileSystem, path: Path, marker: string, text: string)
    requires Contains(text, marker)
    ensures var u := AppendUnlessPresent(fs, path, marker, text);
            AppendUnlessPresent(u.fs, path, marker, text) == Update(u.fs, false)
  {
  }
}

=== FILE: identity.dfy ===
/** Whose account the scripts work for, that account's home directory, and
    the base directory each script keeps Oxidized's files under. */
module Identity {
  import opened Base
  import opened Text
  import opened Files

  /** One entry of `os.listdir('/home')`, with the answer `os.path.isdir`
      gives for it. */
  datatype HomeEntry = HomeEntry(name: Name, isDir: bool)

  /** The account, its home directory and the base directory of the
      installation, fixed once per run. */
  datatype Account = Account(user: string, home: Path, base: Path)

  /** `SUDO_USER` is set, non-empty and not `root`. */
  predicate UsableSudoUser(sudoUser: Option<string>)
  {
    sudoUser.Some? && sudoUser.value != "" && sudoUser.value != "root"
  }

  predicate IsUserHome(e: HomeEntry)
  {
    e.isDir && e.name != "lost+found"
  }

  /** Entry `i` is the first user home of the listing. */
  predicate FirstUserHomeAt(entries: seq<HomeEntry>, i: int)
  {
    0 <= i < |entries| && IsUserHome(entries[i]) && forall j :: 0 <= j < i ==> !IsUserHome(entries[j])
  }

  /** The list comprehension over `/home`: the names of the directories other
      than `lost+found`, in listing order. */
  function UserHomes(entries: seq<HomeEntry>): seq<Name>
  {
    if |entries| == 0 then []
    else (if IsUserHome(entries[0]) then [entries[0].name] else []) + UserHomes(entries[1..])
  }

  /** The comprehension is non-empty exactly when some entry is a user home,
      and then it starts with the first one. */
  lemma {:induction false} UserHomesHead(entries: seq<HomeEntry>)
    ensures |UserHomes(entries)| > 0 <==> exists i :: 0 <= i < |entries| && IsUserHome(entries[i])
    ensures forall i :: FirstUserHomeAt(entries, i) ==> UserHomes(entries)[0] == entries[i].name
  {
    if |entries| > 0 {
      UserHomesHead(entries[1..]);
      if !IsUserHome(entries[0]) {
        assert UserHomes(entries) == UserHomes(entries[1..]);
        if exists i :: 0 <= i < |entries| && IsUserHome(entries[i]) {
          var i :| 0 <= i < |entries| && IsUserHome(entries[i]);
          assert entries[1..][i - 1] == entries[i];
        }
        forall i | FirstUserHomeAt(entries, i)
          ensures UserHomes(entries)[0] == entries[i].name
        {
          assert FirstUserHomeAt(entries[1..], i - 1);
        }
      } else {
        forall i | FirstUserHomeAt(entries, i)
          ensures i == 0
        {
        }
      }
    }
  }

  /** The target user: `SUDO_USER` when usable, else the first user home
      under `/home`, else `root`. */
  function ResolveUser(sudoUser: Option<string>, entries: seq<HomeEntry>): (user: string)
    ensures user != ""
  {
    if UsableSudoUser(sudoUser) then sudoUser.value
    else
      var homes := UserHomes(entries);
      if |homes| > 0 then homes[0] else "root"
  }

  /** The resolution rule, case by case. */
  lemma ResolveUserRule(sudoUser: Option<string>, entries: seq<HomeEntry>)
    ensures UsableSudoUser(sudoUser) ==> ResolveUser(sudoUser, entries) == sudoUser.value
    ensures !UsableSudoUser(sudoUser) ==>
              forall i :: FirstUserHomeAt(entries, i) ==> ResolveUser(sudoUser, entries) == entries[i].name
    ensures !UsableSudoUser(sudoUser) && (forall i :: 0 <= i < |entries| ==> !IsUserHome(entries[i])) ==>
              ResolveUser(sudoUser, entries) == "root"
  {
    UserHomesHead(entries);
  }

  /** `path.rstrip('/')`. */
  function DropTrailingSlashes(path: Path): (r: Path)
    ensures r <= path
    ensures r == "" || r[|r| - 1] != '/'
    ensures forall i :: |r| <= i < |path| ==> path[i] == '/'
    decreases |path|
  {
    if |path| > 0 && path[|path| - 1] == '/' then DropTrailingSlashes(path[..|path| - 1]) else path
  }

  /** The path is empty or made of `/` only. */
  predicate OnlySlashes(path: Path)
  {
    forall i :: 0 <= i < |path| ==> path[i] == '/'
  }

  /** `os.path.expanduser("~" + user)`: the account's home directory from the
      password database without trailing slashes (or `/` when nothing is left),
      and the unexpanded text when the account does not exist. */
  function HomeOf(passwd: map<string, Path>, user: string): (home: Path)
    ensures home != ""
    ensures user !in passwd ==> home == "~" + user
    ensures user in passwd ==> OnlySlashes(passwd[user]) ==> home == "/"
    ensures user in passwd && !OnlySlashes(passwd[user]) ==>
              home <= passwd[user] && home[|home| - 1] != '/'
              && forall i :: |home| <= i < |passwd[user]| ==> passwd[user][i] == '/'
  {
    if user in passwd then
      var h := DropTrailingSlashes(passwd[user]);
      if h == "" then "/" else h
    else "~" + user
  }

  /** The fixed base directory of the installer. */
  const InstallBase: Path := "/opt/oxidized"

  /** The recovery script's base directory: `~user/.config/oxidized`. */
  function RecoveryBase(home: Path): Path
  {
    Join(Join(home, ".config"), "oxidized")
  }

  const KeyName: Name := "id_ed25519_github"

  /** The installer keeps the key pair under its base directory. */
  const InstallKeyPath: Path := Join(Join(InstallBase, ".ssh"), KeyName)

  /** The recovery script keeps the key pair in the account's `~/.ssh`. */
  function RecoveryKeyPath(home: Path): Path
  {
    Join(Join(home, ".ssh"), KeyName)
  }

  /** Both scripts edit the account's own SSH client configuration. */
  function SshConfigPath(home: Path): Path
  {
    Join(Join(home, ".ssh"), "config")
  }

  function InstallAccount(sudoUser: Option<string>, entries: seq<HomeEntry>, passwd: map<string, Path>): (a: Account)
    ensures a.base == "/opt/oxidized"
    ensures a.user == ResolveUser(sudoUser, entries) && a.home == HomeOf(passwd, a.user)
  {
    var user := ResolveUser(sudoUser, entries);
    Account(user, HomeOf(passwd, user), InstallBase)
  }

  function RecoveryAccount(sudoUser: Option<string>, entries: seq<HomeEntry>, passwd: map<string, Path>): (a: Account)
    ensures a.user == ResolveUser(sudoUser, entries) && a.home == HomeOf(passwd, a.user)
    ensures IsSuffixOf(".config/oxidized", a.base)
    ensures a.base == a.home + Glue(a.home) + ".config/oxidized"
  {
    var user := ResolveUser(sudoUser, entries);
    var home := HomeOf(passwd, user);
    RecoveryBaseShape(home);
    Account(user, home, RecoveryBase(home))
  }

  /** Whatever the home directory, the recovery base is `.config/oxidized`
      inside it. */
  lemma RecoveryBaseShape(home: Path)
    ensures RecoveryBase(home) == home + Glue(home) + ".config/oxidized"
    ensures IsSuffixOf(".config/oxidized", RecoveryBase(home))
  {
    JoinTwoForm(home, ".config", "oxidized");
    SuffixOfAppend(home + Glue(home), ".config" + "/" + "oxidized");
    ConfigDirSpelled();
  }

  lemma ConfigDirSpelled()
    ensures ".config" + "/" + "oxidized" == ".config/oxidized"
  {
  }

  /** The two scripts resolve the same account, but the recovery base
      directory can never be the installer's `/opt/oxidized`, whatever the
      home directory is: recovered files land where the installed service
      does not look. */
  lemma BasesDiverge(sudoUser: Option<string>, entries: seq<HomeEntry>, passwd: map<string, Path>)
    ensures InstallAccount(sudoUser, entries, passwd).user == RecoveryAccount(sudoUser, entries, passwd).user
    ensures InstallAccount(sudoUser, entries, passwd).base != RecoveryAccount(sudoUser, entries, passwd).base
  {
    var r := RecoveryAccount(sudoUser, entries, passwd);
    assert |InstallBase| == 13;
    assert |r.base| >= 16;
  }
}

=== FILE: install.dfy ===
/** One run of the installer, reduced to the state it leaves behind: the
    files it writes only when missing, the SSH stanza, the two local git
    repositories and the `origin` remote of the synchronisation repository.
    Package installation, permissions and the systemd unit are not part of
    the state. */
module Install {
  import opened Base
  import opened Text
  import opened Files
  import opened Identity
  import opened GitHubUrl
  import opened KeyPair
  import opened SshAccess
  import opened Inventory
  import opened GuardedAppend

  /** The remotes of one git repository, by name. */
  type Remotes = map<string, string>

  /** The files, and the git repositories that exist with their remotes. */
  datatype Machine = Machine(fs: FileSystem, repos: map<Path, Remotes>)

  /** Everything a run depends on besides the machine: the environment, the
      command line, the answers at the two prompts (`None` for end of input
      at the URL prompt), what `ssh-keygen` would do, and the rendered
      Oxidized configuration. */
  datatype InstallEnv = InstallEnv(sudoUser: Option<string>, homes: seq<HomeEntry>, passwd: map<string, Path>,
                                   argv: seq<string>, urlPrompt: Option<string>,
                                   keygen: KeyGen, confirmed: bool, oxidizedConfig: string)

  const Origin: string := "origin"
  const ConfigsDir: Path := Join(InstallBase, "configs")
  const SyncDir: Path := Join(InstallBase, "repo_sync")
  const OxidizedConfigPath: Path := Join(InstallBase, "config")
  const InventoryPath: Path := Join(InstallBase, "router.db")

  /** `git remote add`: refused when the name is taken. */
  function AddRemote(rs: Remotes, name: string, url: string): (r: Option<Remotes>)
    ensures r.Some? <==> name !in rs
  {
    if name in rs then None else Some(rs[name := url])
  }

  /** `git remote set-url`: refused when the name is unknown. */
  function SetRemoteUrl(rs: Remotes, name: string, url: string): (r: Option<Remotes>)
    ensures r.Some? <==> name in rs
  {
    if name in rs then Some(rs[name := url]) else None
  }

  /** `git remote add origin URL || git remote set-url origin URL`. */
  function AddOrSetOrigin(rs: Remotes, url: string): (r: Remotes)
    ensures Origin in r && r[Origin] == url
    ensures forall name :: name in rs && name != Origin ==> name in r && r[name] == rs[name]
    ensures forall name :: name in r ==> name in rs || name == Origin
  {
    match AddRemote(rs, Origin, url)
    case Some(added) => added
    case None =>
      match SetRemoteUrl(rs, Origin, url)
      case Some(updated) => updated
      case None => rs
  }

  /** Whichever branch of the `||` runs, the result is the same: the
      command is idempotent and independent of the remote's earlier value. */
  lemma AddOrSetOriginIdempotent(rs: Remotes, url: string, other: string)
    ensures AddOrSetOrigin(rs, url) == rs[Origin := url]
    ensures AddOrSetOrigin(AddOrSetOrigin(rs, other), url) == AddOrSetOrigin(rs, url)
  {
  }

  /** `git init` when the directory has no `.git` yet. */
  function InitRepo(repos: map<Path, Remotes>, dir: Path): (r: map<Path, Remotes>)
    ensures dir in r
    ensures dir in repos ==> r == repos
    ensures dir !in repos ==> r == repos[dir := map[]]
  {
    if dir in repos then repos else repos[dir := map[]]
  }

  /** The SSH configuration the installer edits can be none of the files it
      writes under its base directory. */
  lemma InstallPathsDistinct(home: Path)
    ensures SshConfigPath(home) != InstallKeyPath
    ensures SshConfigPath(home) != OxidizedConfigPath
    ensures SshConfigPath(home) != InventoryPath
    ensures InstallKeyPath != OxidizedConfigPath && InstallKeyPath != InventoryPath && OxidizedConfigPath != InventoryPath
    ensures var pub := PublicKeyPath(InstallKeyPath);
            pub != SshConfigPath(home) && pub != OxidizedConfigPath && pub != InventoryPath && pub != InstallKeyPath
  {
    var dir := Join(home, ".ssh");
    assert dir[|dir| - 1] == 'h' by { assert dir[|dir| - 4..][3] == dir[|dir| - 1]; }
    var cfg := SshConfigPath(home);
    assert cfg == dir + "/" + "config";
    assert cfg[|cfg| - 1] == 'g' && cfg[|cfg| - 8] == 'h';
    var key := InstallKeyPath;
    assert IsSuffixOf(KeyName, key);
    assert key[|key| - 1] == 'b' by { assert key[|key| - 1] == key[|key| - 17..][16]; }
    assert key[|key| - 2] == 'u' by { assert key[|key| - 2] == key[|key| - 17..][15]; }
    assert OxidizedConfigPath == "/opt/oxidized/config";
    assert InventoryPath == "/opt/oxidized/router.db";
    var pub := PublicKeyPath(InstallKeyPath);
    assert pub[|pub| - 1] == 'b' && pub[|pub| - 2] == 'u';
  }

  /** The files the installer writes after the key step: the SSH stanza in
      the account's configuration, the Oxidized configuration (always
      rewritten) and the device list (only when missing). */
  function InstallFiles(fs: FileSystem, home: Path, oxidizedConfig: string): (r: FileSystem)
    ensures SshConfigPath(home) in r && Contains(r[SshConfigPath(home)], InstallKeyPath)
    ensures OxidizedConfigPath in r && r[OxidizedConfigPath] == oxidizedConfig
    ensures InventoryPath in fs ==> InventoryPath in r && r[InventoryPath] == fs[InventoryPath]
    ensures InventoryPath !in fs ==> InventoryPath in r && r[InventoryPath] == DefaultInventory()
    ensures InstallKeyPath in fs ==> InstallKeyPath in r && r[InstallKeyPath] == fs[InstallKeyPath]
    ensures SameExcept(fs, r, {SshConfigPath(home), OxidizedConfigPath, InventoryPath})
  {
    InstallPathsDistinct(home);
    var ssh := InstallSshConfig(fs, SshConfigPath(home), InstallKeyPath);
    var written := ssh.fs[OxidizedConfigPath := oxidizedConfig];
    assert SameExcept(fs, written, {SshConfigPath(home), OxidizedConfigPath});
    assert InstallKeyPath !in {SshConfigPath(home)} && InventoryPath !in {SshConfigPath(home)};
    assert InstallKeyPath in fs ==> InstallKeyPath in written && written[InstallKeyPath] == fs[InstallKeyPath];
    assert InventoryPath in fs <==> InventoryPath in written;
    WriteDefaultInventory(written, InstallBase)
  }

  /** The two local repositories, and `origin` of the synchronisation
      repository set to the URL when there is one. */
  function InstallRepos(repos: map<Path, Remotes>, url: string): (r: map<Path, Remotes>)
    ensures SyncDir in r && ConfigsDir in r
    ensures url != "" ==> Origin in r[SyncDir] && r[SyncDir][Origin] == url
    ensures url == "" && SyncDir in repos ==> r[SyncDir] == repos[SyncDir]
    ensures ConfigsDir in repos ==> r[ConfigsDir] == repos[ConfigsDir]
    ensures forall p :: p in repos && p != SyncDir && p != ConfigsDir ==> p in r && r[p] == repos[p]
    ensures forall p :: p in r ==> p in repos || p == SyncDir || p == ConfigsDir
  {
    var inited := InitRepo(InitRepo(repos, ConfigsDir), SyncDir);
    if url != "" then inited[SyncDir := AddOrSetOrigin(inited[SyncDir], url)] else inited
  }

  /** The five files an installer run may change: the key pair, the
      account's SSH configuration, the Oxidized configuration and the device
      list. */
  ghost function InstallTargets(home: Path): set<Path>
  {
    {InstallKeyPath, PublicKeyPath(InstallKeyPath), SshConfigPath(home), OxidizedConfigPath, InventoryPath}
  }

  /** The installer's run. It stops, with status 1, only when `ssh-keygen`
      fails; every other command is taken to succeed. */
  function Install(env: InstallEnv, m: Machine): (r: Result<Machine>)
    ensures r.Exit? <==> InstallKeyPath !in m.fs && env.keygen.status != 0
    ensures r.Exit? ==> r.status == 1
    ensures r.Ok? ==> InstallKeyPath in r.value.fs && SyncDir in r.value.repos && ConfigsDir in r.value.repos
    ensures r.Ok? ==> SameExcept(m.fs, r.value.fs, InstallTargets(InstallAccount(env.sudoUser, env.homes, env.passwd).home))
  {
    var account := InstallAccount(env.sudoUser, env.homes, env.passwd);
    var url := InstallUrl(env.argv, env.urlPrompt);
    match EnsureKeyInstall(m.fs, InstallKeyPath, env.keygen, env.confirmed)
    case Exit(status) => Exit(status)
    case Ok(key) =>
      var fs := InstallFiles(key.fs, account.home, env.oxidizedConfig);
      SameExceptChain(m.fs, key.fs, fs, {InstallKeyPath, PublicKeyPath(InstallKeyPath)},
                      {SshConfigPath(account.home), OxidizedConfigPath, InventoryPath});
      assert {InstallKeyPath, PublicKeyPath(InstallKeyPath)} + {SshConfigPath(account.home), OxidizedConfigPath, InventoryPath}
          == InstallTargets(account.home);
      Ok(Machine(fs, InstallRepos(m.repos, url)))
  }

  /** A completed run leaves the SSH stanza naming the key in the account's
      configuration, the rendered Oxidized configuration, and a device list
      that is the one already there or else the default. */
  lemma InstallWritesFiles(env: InstallEnv, m: Machine)
    requires InstallKeyPath in m.fs || env.keygen.status == 0
    ensures var r := Install(env, m).value;
            var home := InstallAccount(env.sudoUser, env.homes, env.passwd).home;
            SshConfigPath(home) in r.fs && Contains(r.fs[SshConfigPath(home)], InstallKeyPath)
    ensures var r := Install(env, m).value;
            OxidizedConfigPath in r.fs && r.fs[OxidizedConfigPath] == env.oxidizedConfig
    ensures var r := Install(env, m).value;
            InventoryPath in r.fs && r.fs[InventoryPath] == if InventoryPath in m.fs then m.fs[InventoryPath] else DefaultInventory()
  {
    var key := EnsureKeyInstall(m.fs, InstallKeyPath, env.keygen, env.confirmed).value;
    InstallPathsDistinct(InstallAccount(env.sudoUser, env.homes, env.passwd).home);
    assert InventoryPath !in {InstallKeyPath, PublicKeyPath(InstallKeyPath)};
    assert InventoryPath in key.fs <==> InventoryPath in m.fs;
    assert InventoryPath in m.fs ==> key.fs[InventoryPath] == m.fs[InventoryPath];
  }

  /** A completed run points `origin` of the synchronisation repository at
      the URL when there is one, and leaves its remotes alone otherwise. */
  lemma InstallSetsOrigin(env: InstallEnv, m: Machine)
    requires InstallKeyPath in m.fs || env.keygen.status == 0
    ensures var r := Install(env, m).value;
            var url := InstallUrl(env.argv, env.urlPrompt);
            (url != "" ==> Origin in r.repos[SyncDir] && r.repos[SyncDir][Origin] == url)
            && (url == "" && SyncDir in m.repos ==> r.repos[SyncDir] == m.repos[SyncDir])
  {
  }

  /** Writing the installer's files a second time changes nothing. */
  lemma InstallFilesStable(fs: FileSystem, home: Path, oxidizedConfig: string)
    ensures var r := InstallFiles(fs, home, oxidizedConfig);
            InstallFiles(r, home, oxidizedConfig) == r
  {
    var r := InstallFiles(fs, home, oxidizedConfig);
    InstallPathsDistinct(home);
    var ssh := InstallSshConfig(r, SshConfigPath(home), InstallKeyPath);
    assert ssh == Update(r, false);
    assert r[OxidizedConfigPath := oxidizedConfig] == r;
  }

  /** Setting up the repositories a second time changes nothing. */
  lemma InstallReposStable(repos: map<Path, Remotes>, url: string)
    ensures InstallRepos(InstallRepos(repos, url), url) == InstallRepos(repos, url)
  {
    var r := InstallRepos(repos, url);
    var inited := InitRepo(InitRepo(r, ConfigsDir), SyncDir);
    assert inited == r;
    if url != "" {
      AddOrSetOriginIdempotent(r[SyncDir], url, url);
      assert r[SyncDir][Origin := url] == r[SyncDir];
      assert r[SyncDir := AddOrSetOrigin(r[SyncDir], url)] == r;
    }
  }

  /** Running the installer again with the same inputs leaves the machine as
      the first run left it: no second key, no second stanza, the same
      remote, the device list kept. */
  lemma InstallRerunStable(env: InstallEnv, m: Machine)
    requires InstallKeyPath in m.fs || env.keygen.status == 0
    ensures Install(env, Install(env, m).value) == Install(env, m)
  {
    var m1 := Install(env, m).value;
    var home := InstallAccount(env.sudoUser, env.homes, env.passwd).home;
    var url := InstallUrl(env.argv, env.urlPrompt);
    var key := EnsureKeyInstall(m.fs, InstallKeyPath, env.keygen, env.confirmed).value;
    assert m1 == Machine(InstallFiles(key.fs, home, env.oxidizedConfig), InstallRepos(m.repos, url));
    assert EnsureKeyInstall(m1.fs, InstallKeyPath, env.keygen, env.confirmed) == Ok(KeyStep(m1.fs, false, false));
    InstallFilesStable(key.fs, home, env.oxidizedConfig);
    InstallReposStable(m.repos, url);
  }
}

=== FILE: inventory.dfy ===
/** The device inventory `router.db`: colon-separated records, one per line,
    read by Oxidized's CSV source through the column map the installer writes
    into its configuration. */
module Inventory {
  import opened Base
  import opened Text
  import opened Files

  /** One record, its fields in file order. */
  datatype DeviceRecord = DeviceRecord(name: string, ip: string, model: string, username: string,
                                       password: string, sshPort: string, group: string)

  const Delimiter: char := ':'
  const ColumnCount: nat := 7

  function Fields(d: DeviceRecord): seq<string>
  {
    [d.name, d.ip, d.model, d.username, d.password, d.sshPort, d.group]
  }

  /** A record as a line of the file, without its newline. */
  function FormatRecord(d: DeviceRecord): string
  {
    JoinWith(Fields(d), [Delimiter])
  }

  /** The `map` section of the CSV source: node attributes by column. */
  const NodeMap: map<string, nat> := map["name" := 0, "ip" := 1, "model" := 2, "username" := 3, "password" := 4, "group" := 6]

  /** The `vars_map` section: per-node variables by column. */
  const VarsMap: map<string, nat> := map["ssh_port" := 5]

  /** Every column of a record is read exactly once: the two maps name
      different keys, their columns are distinct, below seven, and cover all
      seven. */
  lemma ColumnMapShape()
    ensures NodeMap.Keys !! VarsMap.Keys
    ensures forall k :: k in NodeMap ==> NodeMap[k] < ColumnCount
    ensures forall k :: k in VarsMap ==> VarsMap[k] < ColumnCount
    ensures forall k, l :: k in NodeMap && l in NodeMap && NodeMap[k] == NodeMap[l] ==> k == l
    ensures forall k, l :: k in NodeMap && l in VarsMap ==> NodeMap[k] != VarsMap[l]
    ensures forall i :: 0 <= i < ColumnCount ==> i in NodeMap.Values || i in VarsMap.Values
  {
    assert NodeMap.Keys == {"name", "ip", "model", "username", "password", "group"};
    assert NodeMap.Values == {0, 1, 2, 3, 4, 6} by {
      assert NodeMap["name"] == 0 && NodeMap["ip"] == 1 && NodeMap["model"] == 2;
      assert NodeMap["username"] == 3 && NodeMap["password"] == 4 && NodeMap["group"] == 6;
    }
    assert VarsMap.Values == {5} by { assert VarsMap["ssh_port"] == 5; }
  }

  /** The column of every attribute the map names. */
  lemma ColumnIndices()
    ensures NodeMap["name"] == 0 && NodeMap["ip"] == 1 && NodeMap["model"] == 2 && NodeMap["username"] == 3
    ensures NodeMap["password"] == 4 && NodeMap["group"] == 6 && VarsMap["ssh_port"] == 5
  {
  }

  /** A line read through the column map: a record when the line has all
      seven columns, nothing otherwise. */
  function ReadRecord(line: string): (r: Option<DeviceRecord>)
    ensures r.Some? <==> |Split(line, [Delimiter])| >= ColumnCount
  {
    var f := Split(line, [Delimiter]);
    if |f| < ColumnCount then None
    else Some(DeviceRecord(f[NodeMap["name"]], f[NodeMap["ip"]], f[NodeMap["model"]], f[NodeMap["username"]],
                           f[NodeMap["password"]], f[VarsMap["ssh_port"]], f[NodeMap["group"]]))
  }

  /** The column map matches the order the header announces: a record written
      in file order is read back field for field, provided no field holds the
      delimiter. */
  lemma {:induction false} ReadFormatted(d: DeviceRecord)
    requires forall k :: 0 <= k < |Fields(d)| ==> Delimiter !in Fields(d)[k]
    ensures ReadRecord(FormatRecord(d)) == Some(d)
  {
    ColumnIndices();
    SplitJoinWith(Fields(d), Delimiter);
  }

  /** A field holding the delimiter shifts every later column: the record
      read back is a different one. */
  lemma DelimiterInNameShifts(d: DeviceRecord, x: string, y: string)
    requires d.name == x + [Delimiter] + y
    requires Delimiter !in x
    ensures ReadRecord(FormatRecord(d)) != Some(d)
  {
    ColumnIndices();
    var rest := JoinWith(Fields(d)[1..], [Delimiter]);
    assert Fields(d)[0] == d.name;
    assert FormatRecord(d) == d.name + [Delimiter] + rest;
    assert d.name + [Delimiter] + rest == x + [Delimiter] + (y + [Delimiter] + rest);
    SplitAtFirst(x, Delimiter, y + [Delimiter] + rest);
    assert |x| < |d.name|;
  }

  /** The column names the header comment announces, in file order. */
  const HeaderColumns: seq<string> := ["nome", "ip", "modelo", "usuario", "senha", "porta_ssh", "grupo"]

  /** `# nome:ip:modelo:usuario:senha:porta_ssh:grupo`. */
  const Header: string := "# " + JoinWith(HeaderColumns, [Delimiter])

  /** The example record of a fresh installation. */
  const SampleDevice: DeviceRecord := DeviceRecord("DUMMY_NODE", "127.0.0.1", "routeros", "admin", "admin", "22", "default")

  /** The text of a fresh `router.db`: the header comment and one record. */
  function DefaultInventory(): string
  {
    Header + "\n" + FormatRecord(SampleDevice) + "\n"
  }

  /** A formatted record is its seven fields, in file order, each followed
      by the delimiter except the last. */
  lemma {:induction false} FormatRecordFields(d: DeviceRecord)
    ensures FormatRecord(d) == d.name + ":" + d.ip + ":" + d.model + ":" + d.username + ":"
                               + d.password + ":" + d.sshPort + ":" + d.group
  {
    var f := Fields(d);
    var sep := [Delimiter];
    assert JoinWith(f[6..], sep) == d.group;
    assert JoinWith(f[5..], sep) == d.sshPort + sep + d.group by { assert f[5..][1..] == f[6..]; }
    assert JoinWith(f[4..], sep) == d.password + sep + (d.sshPort + sep + d.group) by { assert f[4..][1..] == f[5..]; }
    assert JoinWith(f[3..], sep) == d.username + sep + JoinWith(f[4..], sep) by { assert f[3..][1..] == f[4..]; }
    assert JoinWith(f[2..], sep) == d.model + sep + JoinWith(f[3..], sep) by { assert f[2..][1..] == f[3..]; }
    assert JoinWith(f[1..], sep) == d.ip + sep + JoinWith(f[2..], sep) by { assert f[1..][1..] == f[2..]; }
    assert JoinWith(f, sep) == d.name + sep + JoinWith(f[1..], sep);
  }

  /** The sample record is the line the installer writes. */
  lemma SampleDeviceLine()
    ensures FormatRecord(SampleDevice) == "DUMMY_NODE" + ":" + "127.0.0.1" + ":" + "routeros" + ":" + "admin" + ":"
                                          + "admin" + ":" + "22" + ":" + "default"
  {
    FormatRecordFields(SampleDevice);
  }

  /** A file made of a header line and one record line splits into exactly
      those two lines (and the empty rest after the final newline), and the
      record line reads back as the record. */
  lemma {:induction false} TwoLineInventory(header: string, d: DeviceRecord)
    requires '\n' !in header
    requires forall k :: 0 <= k < |Fields(d)| ==> Delimiter !in Fields(d)[k] && '\n' !in Fields(d)[k]
    ensures Split(header + "\n" + FormatRecord(d) + "\n", "\n") == [header, FormatRecord(d), ""]
    ensures ReadRecord(FormatRecord(d)) == Some(d)
  {
    var line := FormatRecord(d);
    JoinWithAvoids(Fields(d), [Delimiter], '\n');
    var lines := [header, line, ""];
    assert JoinWith(lines[2..], "\n") == "";
    assert JoinWith(lines[1..], "\n") == line + "\n" + "" by { assert lines[1..][1..] == lines[2..]; }
    assert JoinWith(lines, "\n") == header + "\n" + FormatRecord(d) + "\n";
    SplitJoinWith(lines, '\n');
    ReadFormatted(d);
  }

  /** No column name holds the delimiter or a newline. */
  lemma HeaderColumnsClean()
    ensures forall k :: 0 <= k < |HeaderColumns| ==> Delimiter !in HeaderColumns[k] && '\n' !in HeaderColumns[k]
  {
    var c := HeaderColumns;
    assert Delimiter !in c[0] && '\n' !in c[0] && Delimiter !in c[1] && '\n' !in c[1];
    assert Delimiter !in c[2] && '\n' !in c[2] && Delimiter !in c[3] && '\n' !in c[3];
    assert Delimiter !in c[4] && '\n' !in c[4] && Delimiter !in c[5] && '\n' !in c[5];
    assert Delimiter !in c[6] && '\n' !in c[6];
  }

  /** The header is one comment line naming one column per field of a
      record, seven in all. */
  lemma HeaderIsComment()
    ensures '\n' !in Header && Header[0] == '#'
    ensures |HeaderColumns| == ColumnCount && Split(Header[2..], [Delimiter]) == HeaderColumns
  {
    HeaderColumnsClean();
    JoinWithAvoids(HeaderColumns, [Delimiter], '\n');
    SplitJoinWith(HeaderColumns, Delimiter);
    assert Header[2..] == JoinWith(HeaderColumns, [Delimiter]);
  }

  /** A field that can be written on a line of the file as it is. */
  predicate CleanField(s: string)
  {
    Delimiter !in s && '\n' !in s
  }

  /** Every field of the record is clean. */
  lemma CleanFields(d: DeviceRecord)
    requires CleanField(d.name) && CleanField(d.ip) && CleanField(d.model) && CleanField(d.username)
    requires CleanField(d.password) && CleanField(d.sshPort) && CleanField(d.group)
    ensures forall k :: 0 <= k < |Fields(d)| ==> Delimiter !in Fields(d)[k] && '\n' !in Fields(d)[k]
  {
    var f := Fields(d);
    assert f[0] == d.name && f[1] == d.ip && f[2] == d.model && f[3] == d.username;
    assert f[4] == d.password && f[5] == d.sshPort && f[6] == d.group;
  }

  /** No field of the sample record holds the delimiter or a newline. */
  lemma SampleFieldsClean()
    ensures forall k :: 0 <= k < |Fields(SampleDevice)| ==>
              Delimiter !in Fields(SampleDevice)[k] && '\n' !in Fields(SampleDevice)[k]
  {
    SampleNamesClean();
    SampleValuesClean();
    CleanFields(SampleDevice);
  }

  lemma SampleNamesClean()
    ensures CleanField(SampleDevice.name) && CleanField(SampleDevice.ip) && CleanField(SampleDevice.model)
  {
  }

  lemma SampleValuesClean()
    ensures CleanField(SampleDevice.username) && CleanField(SampleDevice.password)
    ensures CleanField(SampleDevice.sshPort) && CleanField(SampleDevice.group)
  {
  }

  /** A fresh `router.db` has exactly two lines: the comment, and a record
      that reads back as the sample device. */
  lemma DefaultInventoryLines()
    ensures Split(DefaultInventory(), "\n") == [Header, FormatRecord(SampleDevice), ""]
    ensures Header[0] == '#'
    ensures ReadRecord(FormatRecord(SampleDevice)) == Some(SampleDevice)
  {
    HeaderIsComment();
    SampleFieldsClean();
    TwoLineInventory(Header, SampleDevice);
  }

  /** `router.db` under `base` is written only when missing, so a device list
      the user maintains is never replaced. */
  function WriteDefaultInventory(fs: FileSystem, base: Path): (r: FileSystem)
    ensures Join(base, "router.db") in r
    ensures Join(base, "router.db") in fs ==> r == fs
    ensures Join(base, "router.db") !in fs ==> r[Join(base, "router.db")] == DefaultInventory()
    ensures SameExcept(fs, r, {Join(base, "router.db")})
  {
    WriteIfAbsent(fs, Join(base, "router.db"), DefaultInventory())
  }
}

=== FILE: keypair.dfy ===
/** The deploy key: both scripts generate an ed25519 key pair only when the
    private key file is missing, show the public half and wait for the user
    to register it with GitHub. */
module KeyPair {
  import opened Base
  import opened Files
  import opened Commands

  /** What running `ssh-keygen` would do: its exit code, and on success the
      two files it writes. The command is a shell string, so it always starts. */
  datatype KeyGen = KeyGen(status: int, privateKey: string, publicKey: string)

  /** The state after the key step: the filesystem, whether a key was
      generated and whether the user was asked to confirm registration. */
  datatype KeyStep = KeyStep(fs: FileSystem, generated: bool, prompted: bool)

  function PublicKeyPath(key: Path): Path
  {
    key + ".pub"
  }

  /** The files a successful `ssh-keygen -f key` leaves behind. */
  function Generate(fs: FileSystem, key: Path, gen: KeyGen): (r: FileSystem)
    ensures key in r && r[key] == gen.privateKey
    ensures PublicKeyPath(key) in r && r[PublicKeyPath(key)] == gen.publicKey
    ensures SameExcept(fs, r, {key, PublicKeyPath(key)})
  {
    fs[PublicKeyPath(key) := gen.publicKey][key := gen.privateKey]
  }

  /** The installer's key step. A failed `ssh-keygen` ends the run with
      status 1; end of input at the confirmation prompt is ignored, so
      `confirmed` does not influence the result. */
  function EnsureKeyInstall(fs: FileSystem, key: Path, gen: KeyGen, confirmed: bool): (r: Result<KeyStep>)
    ensures key in fs ==> r == Ok(KeyStep(fs, false, false))
    ensures r.Exit? <==> key !in fs && gen.status != 0
    ensures r.Exit? ==> r.status == 1
    ensures r.Ok? ==> key in r.value.fs && r.value.prompted == r.value.generated
    ensures r.Ok? && r.value.generated ==> r.value.fs[key] == gen.privateKey
                                           && PublicKeyPath(key) in r.value.fs
    ensures r.Ok? ==> SameExcept(fs, r.value.fs, {key, PublicKeyPath(key)})
  {
    if key in fs then Ok(KeyStep(fs, false, false))
    else
      match InstallCommand(Exited(gen.status))
      case Exit(status) => Exit(status)
      case Ok(_) => Ok(KeyStep(Generate(fs, key, gen), true, true))
  }

  /** When the recovery script's key step lets the run go on: the key is
      there already, or the user confirms and a public key exists to show,
      fresh from `ssh-keygen` or left from before. */
  predicate KeyStepPasses(fs: FileSystem, key: Path, gen: KeyGen, confirmed: bool)
  {
    key in fs || (confirmed && (gen.status == 0 || PublicKeyPath(key) in fs))
  }

  /** The recovery script's key step. A failed `ssh-keygen` is only reported;
      the script then reads `key.pub` and stops with status 1 when it is
      missing, and its confirmation prompt is unguarded, so end of input
      there stops the run with status 1 as well, after the key was made. */
  function EnsureKeyRecovery(fs: FileSystem, key: Path, gen: KeyGen, confirmed: bool): (r: Progress<KeyStep>)
    ensures key in fs ==> r == Running(KeyStep(fs, false, false))
    ensures r.Stopped? ==> r.status == 1 && key !in fs
    ensures r.Running? <==> KeyStepPasses(fs, key, gen, confirmed)
    ensures r.value.generated <==> key !in fs && gen.status == 0
    ensures r.value.generated ==> key in r.value.fs && r.value.fs[key] == gen.privateKey
                                  && PublicKeyPath(key) in r.value.fs
                                  && r.value.fs[PublicKeyPath(key)] == gen.publicKey
    ensures !r.value.generated ==> r.value.fs == fs
    ensures SameExcept(fs, r.value.fs, {key, PublicKeyPath(key)})
  {
    if key in fs then Running(KeyStep(fs, false, false))
    else
      var succeeded := RunCommand(Exited(gen.status)).value;
      var after := if succeeded then Generate(fs, key, gen) else fs;
      if PublicKeyPath(key) !in after then Stopped(KeyStep(after, succeeded, false), 1)
      else if !confirmed then Stopped(KeyStep(after, succeeded, true), 1)
      else Running(KeyStep(after, succeeded, true))
  }

  /** Once the installer has a key, a later run never generates another or
      asks again, whatever `ssh-keygen` and the user would do. */
  lemma InstallKeyStable(fs: FileSystem, key: Path, gen: KeyGen, confirmed: bool, gen2: KeyGen, confirmed2: bool)
    requires EnsureKeyInstall(fs, key, gen, confirmed).Ok?
    ensures var s := EnsureKeyInstall(fs, key, gen, confirmed).value;
            EnsureKeyInstall(s.fs, key, gen2, confirmed2) == Ok(KeyStep(s.fs, false, false))
  {
  }

  /** A recovery run that went through with a fresh key leaves one in place,
      so the next run skips the step; a run after a failed `ssh-keygen` that
      found an old public key has no private key and asks again. */
  lemma RecoveryKeyStable(fs: FileSystem, key: Path, gen: KeyGen, confirmed: bool, gen2: KeyGen, confirmed2: bool)
    requires KeyStepPasses(fs, key, gen, confirmed)
    ensures var s := EnsureKeyRecovery(fs, key, gen, confirmed).value;
            key in s.fs <==> key in fs || s.generated
    ensures var s := EnsureKeyRecovery(fs, key, gen, confirmed).value;
            key in s.fs ==> EnsureKeyRecovery(s.fs, key, gen2, confirmed2) == Running(KeyStep(s.fs, false, false))
  {
  }
}

=== FILE: recovery.dfy ===
/** One run of the disaster-recovery script: obtain the URL, install git,
    make sure a key and the SSH stanza exist, clone the mirror repository,
    then copy its `setup` directory and its backup directory over the
    installation under `~user/.config/oxidized`. */
module Recovery {
  import opened Base
  import opened Text
  import opened Files
  import opened Identity
  import opened GitHubUrl
  import opened KeyPair
  import opened SshAccess
  import opened Commands

  /** An entry of a directory listing in the cloned repository: a file with
      its text, or a directory with the files in it. */
  datatype Kind = File(text: string) | Dir(files: map<Name, string>)
  datatype Entry = Entry(name: Name, kind: Kind)

  /** The `setup` directory of the clone: its files by name, and its `model`
      sub-directory when there is one. */
  datatype Setup = Setup(files: map<Name, string>, model: Option<map<Name, string>>)

  /** What a clone of the mirror holds: the `setup` directory and the listing
      of `equipamentos_configuracao`, in `os.listdir` order, each when present. */
  datatype Snapshot = Snapshot(setup: Option<Setup>, backups: Option<seq<Entry>>)

  /** Everything a run depends on besides the files: the environment, the
      command line, the answers at the prompts, what the two `apt-get`
      commands and `ssh-keygen` would do,
      and the repositories a clone can reach, by URL. */
  datatype RecoveryEnv = RecoveryEnv(sudoUser: Option<string>, homes: seq<HomeEntry>, passwd: map<string, Path>,
                                     argv: seq<string>, urlPrompt: Option<string>,
                                     aptUpdate: Process, aptInstall: Process,
                                     keygen: KeyGen, confirmed: bool, remote: map<string, Snapshot>)

  const ConfigFile: Name := "config"
  const InventoryFile: Name := "router.db"
  const InstallScript: Name := "install_oxidized.py"
  const RecoveryScript: Name := "restore_oxidized.py"
  const ModelDir: Name := "model"
  const ConfigsDir: Name := "configs"

  /** No two entries of a listing share a name, as `os.listdir` guarantees. */
  ghost predicate DistinctNames(entries: seq<Entry>)
  {
    forall i, j :: 0 <= i < j < |entries| ==> entries[i].name != entries[j].name
  }

  // ---------------------------------------------------------------- backups

  /** The index of the first directory entry of a listing, or its length
      when it has none: the entries before it are the ones the loop as
      written copies. */
  function FirstDir(entries: seq<Entry>): (k: nat)
    ensures k <= |entries|
    ensures forall i :: 0 <= i < k ==> entries[i].kind.File?
    ensures k < |entries| ==> entries[k].kind.Dir?
    decreases |entries|
  {
    if |entries| == 0 || entries[0].kind.Dir? then 0
    else
      var k := 1 + FirstDir(entries[1..]);
      assert forall i :: 1 <= i < |entries| ==> entries[i] == entries[1..][i - 1];
      k
  }

  /** The backup loop as written: `shutil.copy2` of each entry to the same
      name in `dst`. `copy2` cannot copy a directory, so the first directory
      entry raises and ends the script with status 1, keeping the files
      copied before it: the result is the corrected copy of the entries
      before the first directory. */
  function CopyEntriesAsWritten(fs: FileSystem, dst: Path, entries: seq<Entry>): (r: Progress<FileSystem>)
    ensures r.Stopped? <==> exists i :: 0 <= i < |entries| && entries[i].kind.Dir?
    ensures r.Stopped? ==> r.status == 1
    ensures SameExcept(fs, r.value, TreePaths(dst, entries))
    ensures r.value == CopyTree(fs, dst, entries[..FirstDir(entries)])
    decreases |entries|
  {
    if |entries| == 0 then Running(fs)
    else match entries[0].kind
      case Dir(_) => Stopped(fs, 1)
      case File(text) =>
        var fs1 := fs[Join(dst, entries[0].name) := text];
        var r := CopyEntriesAsWritten(fs1, dst, entries[1..]);
        assert forall i :: 1 <= i < |entries| ==> entries[i] == entries[1..][i - 1];
        SameExceptChain(fs, fs1, r.value, EntryPaths(dst, entries[0]), TreePaths(dst, entries[1..]));
        assert entries[..FirstDir(entries)][1..] == entries[1..][..FirstDir(entries[1..])];
        r
  }

  /** The paths one entry occupies below `dst`. */
  ghost function EntryPaths(dst: Path, e: Entry): set<Path>
  {
    match e.kind
    case File(_) => {Join(dst, e.name)}
    case Dir(files) => set n | n in files :: Join(Join(dst, e.name), n)
  }

  ghost function TreePaths(dst: Path, entries: seq<Entry>): set<Path>
    decreases |entries|
  {
    if |entries| == 0 then {} else EntryPaths(dst, entries[0]) + TreePaths(dst, entries[1..])
  }

  /** The entry's content is in place below `dst`. */
  ghost predicate Landed(fs: FileSystem, dst: Path, e: Entry)
  {
    match e.kind
    case File(text) => Join(dst, e.name) in fs && fs[Join(dst, e.name)] == text
    case Dir(files) => forall n :: n in files ==> Join(Join(dst, e.name), n) in fs
                                                  && fs[Join(Join(dst, e.name), n)] == files[n]
  }

  /** One entry copied the way the loop evidently means to: a file to its
      name, a directory with its files (as `shutil.copytree` would). */
  function CopyEntry(fs: FileSystem, dst: Path, e: Entry): (r: FileSystem)
    ensures Landed(r, dst, e)
    ensures SameExcept(fs, r, EntryPaths(dst, e))
  {
    match e.kind
    case File(text) => fs[Join(dst, e.name) := text]
    case Dir(files) => CopyAll(fs, Join(dst, e.name), files)
  }

  /** The backup loop corrected: every entry is restored, directories
      included, and nothing outside the entries' paths changes. */
  function CopyTree(fs: FileSystem, dst: Path, entries: seq<Entry>): (r: FileSystem)
    ensures SameExcept(fs, r, TreePaths(dst, entries))
    decreases |entries|
  {
    if |entries| == 0 then fs
    else CopyTree(CopyEntry(fs, dst, entries[0]), dst, entries[1..])
  }

  /** Entries with different names occupy different paths. */
  lemma EntryPathsDisjoint(dst: Path, e1: Entry, e2: Entry)
    requires e1.name != e2.name
    ensures EntryPaths(dst, e1) !! EntryPaths(dst, e2)
  {
    match e1.kind {
      case File(_) =>
        match e2.kind {
          case File(_) => JoinInjective(dst, e1.name, e2.name);
          case Dir(files) =>
            forall n | n in files ensures Join(dst, e1.name) != Join(Join(dst, e2.name), n) {
              JoinDepthDiffers(dst, e1.name, e2.name, n);
            }
        }
      case Dir(files1) =>
        match e2.kind {
          case File(_) =>
            forall n | n in files1 ensures Join(dst, e2.name) != Join(Join(dst, e1.name), n) {
              JoinDepthDiffers(dst, e2.name, e1.name, n);
            }
          case Dir(files2) =>
            forall m, n | m in files1 && n in files2
              ensures Join(Join(dst, e1.name), m) != Join(Join(dst, e2.name), n)
            {
              JoinTwoInjective(dst, e1.name, m, e2.name, n);
            }
        }
    }
  }

  /** An entry whose name no listed entry has is clear of all their paths. */
  lemma {:induction false} TreePathsAvoid(dst: Path, e: Entry, entries: seq<Entry>)
    requires forall j :: 0 <= j < |entries| ==> entries[j].name != e.name
    ensures EntryPaths(dst, e) !! TreePaths(dst, entries)
    decreases |entries|
  {
    if |entries| > 0 {
      EntryPathsDisjoint(dst, e, entries[0]);
      TreePathsAvoid(dst, e, entries[1..]);
    }
  }

  /** With distinct names, every entry of the listing ends up in place. */
  lemma {:induction false} CopyTreeRestoresAll(fs: FileSystem, dst: Path, entries: seq<Entry>)
    requires DistinctNames(entries)
    ensures forall i :: 0 <= i < |entries| ==> Landed(CopyTree(fs, dst, entries), dst, entries[i])
    decreases |entries|
  {
    if |entries| > 0 {
      var e := entries[0];
      var rest := entries[1..];
      var fs1 := CopyEntry(fs, dst, e);
      var r := CopyTree(fs1, dst, rest);
      assert DistinctNames(rest) by {
        forall i, j | 0 <= i < j < |rest| ensures rest[i].name != rest[j].name {
          assert rest[i] == entries[i + 1] && rest[j] == entries[j + 1];
        }
      }
      CopyTreeRestoresAll(fs1, dst, rest);
      assert forall j :: 0 <= j < |rest| ==> rest[j].name != e.name by {
        forall j | 0 <= j < |rest| ensures rest[j].name != e.name {
          assert rest[j] == entries[j + 1];
        }
      }
      TreePathsAvoid(dst, e, rest);
      assert Landed(r, dst, e);
      forall i | 0 <= i < |entries| ensures Landed(r, dst, entries[i]) {
        if i > 0 { assert entries[i] == rest[i - 1]; }
      }
    }
  }

  /** A file under a name no entry has is left as it was. */
  lemma OtherNamesKept(fs: FileSystem, dst: Path, entries: seq<Entry>, n: Name)
    requires forall j :: 0 <= j < |entries| ==> entries[j].name != n
    ensures var r := CopyTree(fs, dst, entries);
            (Join(dst, n) in r <==> Join(dst, n) in fs) && (Join(dst, n) in fs ==> r[Join(dst, n)] == fs[Join(dst, n)])
  {
    TreePathsAvoid(dst, Entry(n, File("")), entries);
    assert Join(dst, n) in EntryPaths(dst, Entry(n, File("")));
  }

  /** Where the listing has files only, the loop as written and the
      corrected copy do the same. */
  lemma {:induction false} AsWrittenAgreesOnFiles(fs: FileSystem, dst: Path, entries: seq<Entry>)
    requires forall i :: 0 <= i < |entries| ==> entries[i].kind.File?
    ensures CopyEntriesAsWritten(fs, dst, entries) == Running(CopyTree(fs, dst, entries))
    decreases |entries|
  {
    if |entries| > 0 {
      assert entries[0].kind.File?;
      AsWrittenAgreesOnFiles(CopyEntry(fs, dst, entries[0]), dst, entries[1..]);
    }
  }

  /** The layout the installer's synchronisation hook pushes: every device
      file moved into a `default` directory. The loop as written stops at
      that directory without restoring anything; the corrected copy restores
      every file. */
  lemma HookLayoutStops(fs: FileSystem, dst: Path, files: map<Name, string>)
    ensures CopyEntriesAsWritten(fs, dst, [Entry("default", Dir(files))]) == Stopped(fs, 1)
    ensures forall n :: n in files ==> Join(Join(dst, "default"), n) in CopyTree(fs, dst, [Entry("default", Dir(files))])
                                       && CopyTree(fs, dst, [Entry("default", Dir(files))])[Join(Join(dst, "default"), n)] == files[n]
  {
    var entries := [Entry("default", Dir(files))];
    CopyTreeRestoresAll(fs, dst, entries);
    assert Landed(CopyTree(fs, dst, entries), dst, entries[0]);
  }

  // ---------------------------------------------------------------- setup

  /** `shutil.copy2` of the file `name` of a listing to `dst`; a missing
      source raises and ends the script with status 1. */
  function CopyNamed(c: Progress<FileSystem>, src: map<Name, string>, name: Name, dst: Path): (r: Progress<FileSystem>)
    ensures c.Stopped? ==> r == c
    ensures c.Running? ==> (r.Running? <==> name in src) && (r.Stopped? ==> r.status == 1)
    ensures r.Running? ==> dst in r.value && r.value[dst] == src[name]
    ensures SameExcept(c.value, r.value, {dst})
  {
    match c
    case Stopped(_, _) => c
    case Running(fs) => if name in src then Running(fs[dst := src[name]]) else Stopped(fs, 1)
  }

  function BasePath(home: Path, n: Name): Path
  {
    Join(RecoveryBase(home), n)
  }

  function ModelPath(home: Path, n: Name): Path
  {
    Join(Join(RecoveryBase(home), ModelDir), n)
  }

  ghost function ModelTargets(home: Path, model: Option<map<Name, string>>): set<Path>
  {
    match model
    case None => {}
    case Some(files) => set n | n in files :: ModelPath(home, n)
  }

  /** The first half of the setup step: the configuration and the device
      list into the base directory, then the model files when the clone has a
      `model` directory. */
  function RestoreBaseFiles(fs: FileSystem, setup: Setup, home: Path): (r: Progress<FileSystem>)
    ensures r.Running? <==> ConfigFile in setup.files && InventoryFile in setup.files
    ensures r.Stopped? ==> r.status == 1
    ensures SameExcept(fs, r.value, {BasePath(home, ConfigFile), BasePath(home, InventoryFile)} + ModelTargets(home, setup.model))
  {
    var base := RecoveryBase(home);
    var c1 := CopyNamed(Running(fs), setup.files, ConfigFile, Join(base, ConfigFile));
    var c2 := CopyNamed(c1, setup.files, InventoryFile, Join(base, InventoryFile));
    SameExceptChain(fs, c1.value, c2.value, {Join(base, ConfigFile)}, {Join(base, InventoryFile)});
    match c2
    case Stopped(_, _) => c2
    case Running(fs2) =>
      match setup.model
      case None => c2
      case Some(files) =>
        var r := CopyAll(fs2, Join(base, ModelDir), files);
        SameExceptChain(fs, fs2, r, {Join(base, ConfigFile), Join(base, InventoryFile)}, ModelTargets(home, setup.model));
        Running(r)
  }

  /** The four files the setup step writes. */
  ghost function SetupTargets(home: Path): set<Path>
  {
    {BasePath(home, ConfigFile), BasePath(home, InventoryFile), Join(home, InstallScript), Join(home, RecoveryScript)}
  }

  /** The second half of the setup step: the two scripts into the home
      directory. */
  function RestoreScripts(c: Progress<FileSystem>, setup: Setup, home: Path): (r: Progress<FileSystem>)
    ensures c.Stopped? ==> r == c
    ensures c.Running? ==> (r.Running? <==> InstallScript in setup.files && RecoveryScript in setup.files)
    ensures r.Stopped? && c.Running? ==> r.status == 1
    ensures r.Running? ==> Join(home, InstallScript) in r.value && r.value[Join(home, InstallScript)] == setup.files[InstallScript]
                           && Join(home, RecoveryScript) in r.value && r.value[Join(home, RecoveryScript)] == setup.files[RecoveryScript]
    ensures SameExcept(c.value, r.value, {Join(home, InstallScript), Join(home, RecoveryScript)})
  {
    var c4 := CopyNamed(c, setup.files, InstallScript, Join(home, InstallScript));
    var c5 := CopyNamed(c4, setup.files, RecoveryScript, Join(home, RecoveryScript));
    JoinInjective(home, InstallScript, RecoveryScript);
    SameExceptChain(c.value, c4.value, c5.value, {Join(home, InstallScript)}, {Join(home, RecoveryScript)});
    assert {Join(home, InstallScript)} + {Join(home, RecoveryScript)} == {Join(home, InstallScript), Join(home, RecoveryScript)};
    c5
  }

  /** The clone's `setup` directory holds the four files the step copies by
      name. */
  predicate CompleteSetup(setup: Setup)
  {
    ConfigFile in setup.files && InventoryFile in setup.files
    && InstallScript in setup.files && RecoveryScript in setup.files
  }

  /** The setup step: the base files, then the two scripts. Each of the four
      named files must exist in the clone; the model directory is skipped
      when the clone has none. */
  function RestoreSetup(fs: FileSystem, setup: Setup, home: Path): (r: Progress<FileSystem>)
    ensures r.Running? <==> CompleteSetup(setup)
    ensures r.Stopped? ==> r.status == 1
    ensures SameExcept(fs, r.value, SetupTargets(home) + ModelTargets(home, setup.model))
    ensures setup.model.None? ==> SameExcept(fs, r.value, SetupTargets(home))
  {
    var c3 := RestoreBaseFiles(fs, setup, home);
    var c5 := RestoreScripts(c3, setup, home);
    var baseTargets := {BasePath(home, ConfigFile), BasePath(home, InventoryFile)} + ModelTargets(home, setup.model);
    SameExceptChain(fs, c3.value, c5.value, baseTargets, {Join(home, InstallScript), Join(home, RecoveryScript)});
    assert baseTargets + {Join(home, InstallScript), Join(home, RecoveryScript)}
        == SetupTargets(home) + ModelTargets(home, setup.model);
    c5
  }

  /** A path below `Join(home, d)` is not the file `Join(home, s)` when the
      two names start differently. */
  lemma BelowOtherName(home: Path, d: Name, s: Name, p: Path)
    requires d[0] != s[0]
    requires Join(home, d) <= p
    ensures p != Join(home, s)
  {
    JoinName(home, d);
    JoinName(home, s);
    var pre := home + Glue(home);
    assert Join(home, d)[|pre|] == d[0];
    assert p[|pre|] == d[0];
    assert Join(home, s)[|pre|] == s[0];
  }

  /** Paths below the base directory lie under `.config` in the home
      directory, so they are never a script copied into the home directory. */
  lemma BaseAvoidsScripts(home: Path, n: Name, m: Name, s: Name)
    requires s[0] != '.'
    ensures BasePath(home, n) != Join(home, s)
    ensures ModelPath(home, m) != Join(home, s)
  {
    var cfg := Join(home, ".config");
    var base := Join(cfg, "oxidized");
    var model := Join(base, ModelDir);
    JoinExtends(cfg, "oxidized");
    JoinExtends(base, n);
    JoinExtends(base, ModelDir);
    JoinExtends(model, m);
    PrefixTransitive(cfg, base, Join(base, n));
    PrefixTransitive(cfg, base, model);
    PrefixTransitive(cfg, model, Join(model, m));
    BelowOtherName(home, ".config", s, Join(base, n));
    BelowOtherName(home, ".config", s, Join(model, m));
  }

  /** After the first half of the setup step the configuration, the device
      list and every model file hold the clone's text. */
  lemma BaseFilesLand(fs: FileSystem, setup: Setup, home: Path)
    requires ConfigFile in setup.files && InventoryFile in setup.files
    ensures var r := RestoreBaseFiles(fs, setup, home).value;
            BasePath(home, ConfigFile) in r && r[BasePath(home, ConfigFile)] == setup.files[ConfigFile]
            && BasePath(home, InventoryFile) in r && r[BasePath(home, InventoryFile)] == setup.files[InventoryFile]
    ensures var r := RestoreBaseFiles(fs, setup, home).value;
            setup.model.Some? ==>
              forall n :: n in setup.model.value ==> ModelPath(home, n) in r && r[ModelPath(home, n)] == setup.model.value[n]
  {
    var base := RecoveryBase(home);
    JoinInjective(base, ConfigFile, InventoryFile);
    if setup.model.Some? {
      forall n | n in setup.model.value
        ensures ModelPath(home, n) != BasePath(home, ConfigFile) && ModelPath(home, n) != BasePath(home, InventoryFile)
      {
        JoinDepthDiffers(base, ConfigFile, ModelDir, n);
        JoinDepthDiffers(base, InventoryFile, ModelDir, n);
      }
    }
  }

  /** After a complete setup step every restored file holds the clone's
      text: the scripts never land on a file of the base directory. */
  lemma RestoreSetupLands(fs: FileSystem, setup: Setup, home: Path)
    requires CompleteSetup(setup)
    ensures var r := RestoreSetup(fs, setup, home).value;
            BasePath(home, ConfigFile) in r && r[BasePath(home, ConfigFile)] == setup.files[ConfigFile]
            && BasePath(home, InventoryFile) in r && r[BasePath(home, InventoryFile)] == setup.files[InventoryFile]
            && Join(home, InstallScript) in r && r[Join(home, InstallScript)] == setup.files[InstallScript]
            && Join(home, RecoveryScript) in r && r[Join(home, RecoveryScript)] == setup.files[RecoveryScript]
  {
    BaseFilesLand(fs, setup, home);
    ScriptsKeep(RestoreBaseFiles(fs, setup, home), setup, home, BasePath(home, ConfigFile));
    ScriptsKeep(RestoreBaseFiles(fs, setup, home), setup, home, BasePath(home, InventoryFile));
  }

  /** After a complete setup step with a model directory every model file
      holds the clone's text. */
  lemma RestoreSetupLandsModel(fs: FileSystem, setup: Setup, home: Path)
    requires CompleteSetup(setup) && setup.model.Some?
    ensures var r := RestoreSetup(fs, setup, home).value;
            forall n :: n in setup.model.value ==> ModelPath(home, n) in r && r[ModelPath(home, n)] == setup.model.value[n]
  {
    BaseFilesLand(fs, setup, home);
    forall n | n in setup.model.value
      ensures var r := RestoreSetup(fs, setup, home).value;
              ModelPath(home, n) in r && r[ModelPath(home, n)] == setup.model.value[n]
    {
      ScriptsKeep(RestoreBaseFiles(fs, setup, home), setup, home, ModelPath(home, n));
    }
  }

  /** The scripts step keeps every file below the base directory. */
  lemma ScriptsKeep(c: Progress<FileSystem>, setup: Setup, home: Path, p: Path)
    requires p == BasePath(home, ConfigFile) || p == BasePath(home, InventoryFile)
             || exists n: Name :: p == ModelPath(home, n)
    ensures var r := RestoreScripts(c, setup, home).value;
            (p in r <==> p in c.value) && (p in c.value ==> r[p] == c.value[p])
  {
    if p == BasePath(home, ConfigFile) || p == BasePath(home, InventoryFile) {
      var n: Name := if p == BasePath(home, ConfigFile) then ConfigFile else InventoryFile;
      BaseAvoidsScripts(home, n, n, InstallScript);
      BaseAvoidsScripts(home, n, n, RecoveryScript);
    } else {
      var n: Name :| p == ModelPath(home, n);
      BaseAvoidsScripts(home, n, n, InstallScript);
      BaseAvoidsScripts(home, n, n, RecoveryScript);
    }
  }

  // ---------------------------------------------------------------- the run

  /** The backup listing holds plain files only, the case the loop as written
      copies without raising. */
  predicate FilesOnly(entries: seq<Entry>)
  {
    forall i :: 0 <= i < |entries| ==> entries[i].kind.File?
  }

  /** The setup step of a successful clone: skipped without a `setup`
      directory. */
  function SetupStep(fs: FileSystem, snap: Snapshot, home: Path): (r: Progress<FileSystem>)
    ensures r.Running? <==> snap.setup.None? || CompleteSetup(snap.setup.value)
    ensures r.Stopped? ==> r.status == 1
    ensures snap.setup.None? ==> r == Running(fs)
  {
    match snap.setup
    case None => Running(fs)
    case Some(setup) => RestoreSetup(fs, setup, home)
  }

  /** The copies from a successful clone as the script writes them: the setup
      step, then the backup loop with `shutil.copy2`, which stops at the first
      directory entry. */
  function RestoreSnapshot(fs: FileSystem, snap: Snapshot, home: Path): (r: Progress<FileSystem>)
    ensures r.Running? <==> (snap.setup.None? || CompleteSetup(snap.setup.value))
                            && (snap.backups.None? || FilesOnly(snap.backups.value))
    ensures r.Stopped? ==> r.status == 1
    ensures snap.setup.None? && snap.backups.None? ==> r == Running(fs)
  {
    match SetupStep(fs, snap, home)
    case Stopped(fs1, status) => Stopped(fs1, status)
    case Running(fs1) =>
      match snap.backups
      case None => Running(fs1)
      case Some(entries) => CopyEntriesAsWritten(fs1, BasePath(home, ConfigsDir), entries)
  }

  /** The copies with the backup loop corrected to copy directories as trees:
      only the setup step can stop them. */
  function RestoreSnapshotIntended(fs: FileSystem, snap: Snapshot, home: Path): (r: Progress<FileSystem>)
    ensures r.Running? <==> snap.setup.None? || CompleteSetup(snap.setup.value)
    ensures r.Stopped? ==> r.status == 1
    ensures snap.setup.None? && snap.backups.None? ==> r == Running(fs)
  {
    match SetupStep(fs, snap, home)
    case Stopped(fs1, status) => Stopped(fs1, status)
    case Running(fs1) =>
      match snap.backups
      case None => Running(fs1)
      case Some(entries) => Running(CopyTree(fs1, BasePath(home, ConfigsDir), entries))
  }

  /** The two `apt-get` commands, given as argument lists: a failing one is
      reported and the run goes on, while a program that cannot be started
      ends the run with status 1. */
  function RecoveryDependencies(update: Process, install: Process): (r: Result<()>)
    ensures r.Ok? <==> update.Exited? && install.Exited?
    ensures r.Exit? ==> r.status == 1
  {
    match RunCommand(update)
    case Exit(status) => Exit(status)
    case Ok(_) =>
      match RunCommand(install)
      case Exit(status) => Exit(status)
      case Ok(_) => Ok(())
  }

  /** The home directory of the account the run works for. */
  function RunHome(env: RecoveryEnv): Path
  {
    RecoveryAccount(env.sudoUser, env.homes, env.passwd).home
  }

  /** The run reaches the restore copies: there is a URL, both `apt-get`
      programs start, the key step passes and the clone succeeds. */
  predicate Cloned(env: RecoveryEnv, fs: FileSystem)
  {
    match RecoveryUrl(env.argv, env.urlPrompt)
    case Exit(_) => false
    case Ok(url) =>
      env.aptUpdate.Exited? && env.aptInstall.Exited?
      && KeyStepPasses(fs, RecoveryKeyPath(RunHome(env)), env.keygen, env.confirmed)
      && url in env.remote
  }

  /** What the clone holds, once the run has reached the copies. */
  function Clone(env: RecoveryEnv, fs: FileSystem): Snapshot
    requires Cloned(env, fs)
  {
    env.remote[RecoveryUrl(env.argv, env.urlPrompt).value]
  }

  /** The run up to the restore copies: the URL, the dependencies, the key
      step, the SSH stanza and the clone. */
  function Prepare(env: RecoveryEnv, fs: FileSystem): (r: Progress<FileSystem>)
    ensures r.Running? <==> Cloned(env, fs)
    ensures r.Stopped? ==> r.status == 1
    ensures RecoveryUrl(env.argv, env.urlPrompt).Exit? ==> r == Stopped(fs, 1)
    ensures RecoveryUrl(env.argv, env.urlPrompt).Ok? && RecoveryDependencies(env.aptUpdate, env.aptInstall).Exit?
            ==> r == Stopped(fs, 1)
  {
    var home := RunHome(env);
    match RecoveryUrl(env.argv, env.urlPrompt)
    case Exit(status) => Stopped(fs, status)
    case Ok(url) =>
      match RecoveryDependencies(env.aptUpdate, env.aptInstall)
      case Exit(status) => Stopped(fs, status)
      case Ok(_) =>
        var key := RecoveryKeyPath(home);
        match EnsureKeyRecovery(fs, key, env.keygen, env.confirmed)
        case Stopped(k, status) => Stopped(k.fs, status)
        case Running(k) =>
          var ssh := RecoverySshConfig(k.fs, SshConfigPath(home), key).fs;
          if url !in env.remote then Stopped(ssh, 1) else Running(ssh)
  }

  /** The recovery run as the script writes it. Every way it can stop ends
      the process with status 1; without a URL it stops before touching
      anything. */
  function Recover(env: RecoveryEnv, fs: FileSystem): (o: Progress<FileSystem>)
    ensures o.Stopped? ==> o.status == 1
    ensures RecoveryUrl(env.argv, env.urlPrompt).Exit? ==> o == Stopped(fs, 1)
  {
    match Prepare(env, fs)
    case Stopped(fs1, status) => Stopped(fs1, status)
    case Running(fs1) => RestoreSnapshot(fs1, Clone(env, fs), RunHome(env))
  }

  /** The recovery run with the backup loop corrected. */
  function RecoverIntended(env: RecoveryEnv, fs: FileSystem): (o: Progress<FileSystem>)
    ensures o.Stopped? ==> o.status == 1
    ensures RecoveryUrl(env.argv, env.urlPrompt).Exit? ==> o == Stopped(fs, 1)
  {
    match Prepare(env, fs)
    case Stopped(fs1, status) => Stopped(fs1, status)
    case Running(fs1) => RestoreSnapshotIntended(fs1, Clone(env, fs), RunHome(env))
  }

  /** A clone that fails ends the run before any restore copy: the only
      files that may have changed are the key pair and the SSH configuration. */
  lemma CloneFailureCopiesNothing(env: RecoveryEnv, fs: FileSystem)
    requires RecoveryUrl(env.argv, env.urlPrompt).Ok?
    requires RecoveryUrl(env.argv, env.urlPrompt).value !in env.remote
    ensures var home := RunHome(env);
            var o := Recover(env, fs);
            o.Stopped? && o.status == 1
            && SameExcept(fs, o.value, {RecoveryKeyPath(home), PublicKeyPath(RecoveryKeyPath(home)), SshConfigPath(home)})
  {
  }

  /** A clone whose `setup` directory lacks one of the four named files ends
      the run with status 1, in the script and in the corrected run alike. */
  lemma SetupFileMissingStops(env: RecoveryEnv, fs: FileSystem)
    requires Cloned(env, fs)
    requires Clone(env, fs).setup.Some? && !CompleteSetup(Clone(env, fs).setup.value)
    ensures Recover(env, fs).Stopped? && Recover(env, fs).status == 1
    ensures RecoverIntended(env, fs).Stopped? && RecoverIntended(env, fs).status == 1
  {
  }

  /** The script's run goes through to the end: the run reaches the copies,
      a `setup` directory, when the clone has one, holds the four named
      files, and the backup listing, when there is one, has no directory. */
  predicate Completes(env: RecoveryEnv, fs: FileSystem)
  {
    Cloned(env, fs)
    && (Clone(env, fs).setup.None? || CompleteSetup(Clone(env, fs).setup.value))
    && (Clone(env, fs).backups.None? || FilesOnly(Clone(env, fs).backups.value))
  }

  /** The corrected run goes through to the end: the backup listing may hold
      directories. */
  predicate CompletesIntended(env: RecoveryEnv, fs: FileSystem)
  {
    Cloned(env, fs) && (Clone(env, fs).setup.None? || CompleteSetup(Clone(env, fs).setup.value))
  }

  /** The script's run stops, always with status 1, exactly when one of the
      conditions of `Completes` fails. */
  lemma RecoverCompletesIff(env: RecoveryEnv, fs: FileSystem)
    ensures Recover(env, fs).Running? <==> Completes(env, fs)
  {
  }

  /** The corrected run stops exactly when one of the conditions of
      `CompletesIntended` fails. */
  lemma RecoverIntendedCompletesIff(env: RecoveryEnv, fs: FileSystem)
    ensures RecoverIntended(env, fs).Running? <==> CompletesIntended(env, fs)
  {
  }

  /** A directory in the backup listing, such as the `default` directory the
      installer's hook pushes, ends the script's run with status 1 where the
      corrected run goes through. */
  lemma RecoverStopsOnBackupDirectory(env: RecoveryEnv, fs: FileSystem)
    requires CompletesIntended(env, fs)
    requires Clone(env, fs).backups.Some? && !FilesOnly(Clone(env, fs).backups.value)
    ensures Recover(env, fs).Stopped? && Recover(env, fs).status == 1
    ensures RecoverIntended(env, fs).Running?
  {
  }

  /** Without a directory in the backup listing the script and the corrected
      run do the same. */
  lemma RecoverAgreesWithIntended(env: RecoveryEnv, fs: FileSystem)
    requires Cloned(env, fs) ==> Clone(env, fs).backups.None? || FilesOnly(Clone(env, fs).backups.value)
    ensures Recover(env, fs) == RecoverIntended(env, fs)
  {
    if Prepare(env, fs).Running? {
      var snap := Clone(env, fs);
      var step := SetupStep(Prepare(env, fs).value, snap, RunHome(env));
      if step.Running? && snap.backups.Some? {
        AsWrittenAgreesOnFiles(step.value, BasePath(RunHome(env), ConfigsDir), snap.backups.value);
      }
    }
  }

  /** A completed corrected run from a clone with a backup listing leaves
      every backup entry, directories included, in `configs` under the base
      directory. */
  lemma RecoverIntendedRestoresBackups(env: RecoveryEnv, fs: FileSystem)
    requires CompletesIntended(env, fs)
    requires Clone(env, fs).backups.Some? && DistinctNames(Clone(env, fs).backups.value)
    ensures var entries := Clone(env, fs).backups.value;
            forall i :: 0 <= i < |entries| ==> Landed(RecoverIntended(env, fs).value, BasePath(RunHome(env), ConfigsDir), entries[i])
  {
    var snap := Clone(env, fs);
    var step := SetupStep(Prepare(env, fs).value, snap, RunHome(env));
    CopyTreeRestoresAll(step.value, BasePath(RunHome(env), ConfigsDir), snap.backups.value);
  }

  /** A completed run of the script from a clone with a backup listing leaves
      every backup file in `configs` under the base directory. */
  lemma RecoverRestoresBackups(env: RecoveryEnv, fs: FileSystem)
    requires Completes(env, fs)
    requires Clone(env, fs).backups.Some? && DistinctNames(Clone(env, fs).backups.value)
    ensures var entries := Clone(env, fs).backups.value;
            forall i :: 0 <= i < |entries| ==> Landed(Recover(env, fs).value, BasePath(RunHome(env), ConfigsDir), entries[i])
  {
    RecoverAgreesWithIntended(env, fs);
    RecoverIntendedRestoresBackups(env, fs);
  }
}

=== FILE: ssh_access.dfy ===
/** The `Host github.com` stanza both scripts add to the account's SSH client
    configuration so that `git` reaches GitHub with the generated key. The
    installer checks the file for the bare key path, the recovery script for
    `IdentityFile ` followed by the key path. */
module SshAccess {
  import opened Text
  import opened Files
  import opened GuardedAppend

  const IdentityPrefix: string := "IdentityFile "

  /** The stanza text, in both scripts the same. */
  function Stanza(key: Path): string
  {
    "\nHost github.com\n  HostName github.com\n  User git\n  " + IdentityPrefix + key + "\n  StrictHostKeyChecking no\n"
  }

  /** The stanza names the key both ways the scripts look for it. */
  lemma StanzaCarriesMarkers(key: Path)
    ensures Contains(Stanza(key), key)
    ensures Contains(Stanza(key), IdentityPrefix + key)
  {
    var head := "\nHost github.com\n  HostName github.com\n  User git\n  ";
    var tail := "\n  StrictHostKeyChecking no\n";
    assert Stanza(key) == head + (IdentityPrefix + key) + tail;
    ContainsMiddle(head, IdentityPrefix + key, tail);
    assert IdentityPrefix + key + "" == IdentityPrefix + key;
    ContainsPart(Stanza(key), IdentityPrefix, key, "");
  }

  /** The installer's step: append the stanza for `key` to `config` unless the
      file already mentions the key path anywhere. */
  function InstallSshConfig(fs: FileSystem, config: Path, key: Path): (u: Update)
    ensures u.changed <==> !(config in fs && Contains(fs[config], key))
    ensures config in u.fs && Contains(u.fs[config], key)
    ensures ContentOr(fs, config) <= u.fs[config]
    ensures SameExcept(fs, u.fs, {config})
  {
    StanzaCarriesMarkers(key);
    AppendUnlessPresent(fs, config, key, Stanza(key))
  }

  /** The recovery script's step: the same stanza, appended unless the file
      already holds `IdentityFile <key>`. */
  function RecoverySshConfig(fs: FileSystem, config: Path, key: Path): (u: Update)
    ensures u.changed <==> !(config in fs && Contains(fs[config], IdentityPrefix + key))
    ensures config in u.fs && Contains(u.fs[config], IdentityPrefix + key)
    ensures ContentOr(fs, config) <= u.fs[config]
    ensures SameExcept(fs, u.fs, {config})
  {
    StanzaCarriesMarkers(key);
    AppendUnlessPresent(fs, config, IdentityPrefix + key, Stanza(key))
  }

  /** The appended text is exactly one stanza after the old content, and a
      second run changes nothing: however often either script runs, the
      stanza for a key is added at most once. */
  lemma SshConfigOnce(fs: FileSystem, config: Path, key: Path)
    ensures var u := InstallSshConfig(fs, config, key);
            u.fs[config] == ContentOr(fs, config) + (if u.changed then Stanza(key) else "")
            && InstallSshConfig(u.fs, config, key) == Update(u.fs, false)
    ensures var u := RecoverySshConfig(fs, config, key);
            u.fs[config] == ContentOr(fs, config) + (if u.changed then Stanza(key) else "")
            && RecoverySshConfig(u.fs, config, key) == Update(u.fs, false)
  {
    StanzaCarriesMarkers(key);
    AppendUnlessPresentIdempotent(fs, config, key, Stanza(key));
    AppendUnlessPresentIdempotent(fs, config, IdentityPrefix + key, Stanza(key));
  }

  /** Whenever the recovery script leaves the file alone, so does the
      installer: its test is the weaker one. */
  lemma RecoveryCheckImpliesInstallCheck(fs: FileSystem, config: Path, key: Path)
    ensures !RecoverySshConfig(fs, config, key).changed ==> !InstallSshConfig(fs, config, key).changed
  {
    if config in fs && Contains(fs[config], IdentityPrefix + key) {
      assert IdentityPrefix + key + "" == IdentityPrefix + key;
      ContainsPart(fs[config], IdentityPrefix, key, "");
    }
  }

  /** The two tests really differ: a file that mentions the key path only
      outside an `IdentityFile` line satisfies the installer but not the
      recovery script, which appends a second stanza. */
  lemma ChecksDiverge(fs: FileSystem, config: Path, key: Path)
    requires config in fs && fs[config] == key
    ensures !InstallSshConfig(fs, config, key).changed
    ensures RecoverySshConfig(fs, config, key).changed
  {
    assert key == "" + key + "";
    ContainsMiddle("", key, "");
    ShortDoesNotContain(key, IdentityPrefix + key);
  }
}

=== FILE: text.dfy ===
/** The Python string operations the scripts are built from: `pat in s`,
    `s.strip()`, `s.split(sep)`, `sep.join(parts)` and `s.replace(old, new)`,
    each with the semantics of CPython's `str`. */
module Text {

  lemma SuffixOfAppend(x: string, t: string)
    ensures IsSuffixOf(t, x + t)
  {
    assert (x + t)[|x + t| - |t|..] == t;
  }

  lemma SuffixExtend(t: string, x: string, y: string)
    requires IsSuffixOf(t, y)
    ensures IsSuffixOf(t, x + y)
  {
    assert (x + y)[|x + y| - |t|..] == y[|y| - |t|..];
  }

  lemma PrefixTransitive(a: string, b: string, c: string)
    requires a <= b && b <= c
    ensures a <= c
  {
    assert c[..|a|] == c[..|b|][..|a|];
  }

  predicate IsSuffixOf(p: string, s: string)
  {
    |p| <= |s| && s[|s| - |p|..] == p
  }

  /** `pat` occurs in `s` starting at index `i`. */
  predicate OccursAt(s: string, pat: string, i: int)
  {
    0 <= i && i + |pat| <= |s| && s[i..i + |pat|] == pat
  }

  /** Python's `pat in s` for two strings: substring containment. */
  predicate Contains(s: string, pat: string)
    decreases |s|
  {
    pat <= s || (|s| > 0 && Contains(s[1..], pat))
  }

  /** The recursive scan agrees with the positional definition of a substring. */
  lemma {:induction false} ContainsIffOccurs(s: string, pat: string)
    ensures Contains(s, pat) <==> exists i :: OccursAt(s, pat, i)
    decreases |s|
  {
    if Contains(s, pat) {
      if pat <= s {
        assert OccursAt(s, pat, 0);
      } else {
        ContainsIffOccurs(s[1..], pat);
        var i :| OccursAt(s[1..], pat, i);
        assert s[i + 1..i + 1 + |pat|] == pat by {
          forall k | 0 <= k < |pat| ensures s[i + 1..i + 1 + |pat|][k] == pat[k] {
            assert pat[k] == s[1..][i..i + |pat|][k];
          }
        }
        assert OccursAt(s, pat, i + 1);
      }
    }
    if exists i :: OccursAt(s, pat, i) {
      var i :| OccursAt(s, pat, i);
      if i == 0 {
        assert pat <= s;
      } else {
        assert s[1..][i - 1..i - 1 + |pat|] == pat by {
          forall k | 0 <= k < |pat| ensures s[1..][i - 1..i - 1 + |pat|][k] == pat[k] {
            assert pat[k] == s[i..i + |pat|][k];
          }
        }
        assert OccursAt(s[1..], pat, i - 1);
        ContainsIffOccurs(s[1..], pat);
      }
    }
  }

  lemma ContainsAt(s: string, pat: string, i: int)
    requires OccursAt(s, pat, i)
    ensures Contains(s, pat)
  {
    ContainsIffOccurs(s, pat);
  }

  /** A string contains every string it is built around. */
  lemma ContainsMiddle(a: string, pat: string, b: string)
    ensures Contains(a + pat + b, pat)
  {
    assert (a + pat + b)[|a|..|a| + |pat|] == pat;
    ContainsAt(a + pat + b, pat, |a|);
  }

  /** Containment survives adding text on either side. */
  lemma ContainsExtend(a: string, s: string, b: string, pat: string)
    requires Contains(s, pat)
    ensures Contains(a + s + b, pat)
  {
    ContainsIffOccurs(s, pat);
    var i :| OccursAt(s, pat, i);
    assert (a + s + b)[|a| + i..|a| + i + |pat|] == s[i..i + |pat|];
    ContainsAt(a + s + b, pat, |a| + i);
  }

  /** A string that contains `x + pat + y` contains `pat`. */
  lemma ContainsPart(s: string, x: string, pat: string, y: string)
    requires Contains(s, x + pat + y)
    ensures Contains(s, pat)
  {
    var whole := x + pat + y;
    ContainsIffOccurs(s, whole);
    var i :| OccursAt(s, whole, i);
    forall k | 0 <= k < |pat|
      ensures s[i + |x| + k] == pat[k]
    {
      assert s[i + |x| + k] == s[i..i + |whole|][|x| + k];
      assert whole[|x| + k] == pat[k];
    }
    assert s[i + |x|..i + |x| + |pat|] == pat;
    ContainsAt(s, pat, i + |x|);
  }

  lemma ShortDoesNotContain(s: string, pat: string)
    requires |s| < |pat|
    ensures !Contains(s, pat)
  {
    ContainsIffOccurs(s, pat);
  }

  /** Text free of the first character of `pat` cannot start an occurrence,
      so prefixing it changes nothing about containment. */
  lemma {:induction false} ContainsSkipHeadless(a: string, b: string, pat: string)
    requires |pat| > 0 && pat[0] !in a
    ensures Contains(a + b, pat) <==> Contains(b, pat)
    decreases |a|
  {
    if |a| > 0 {
      assert !(pat <= a + b) by {
        if |pat| <= |a + b| { assert (a + b)[..|pat|][0] == a[0]; }
      }
      assert (a + b)[1..] == a[1..] + b;
      ContainsSkipHeadless(a[1..], b, pat);
    } else {
      assert a + b == b;
    }
  }

  /** Every character of an occurring pattern is a character of the text. */
  lemma ContainsHasChars(s: string, pat: string)
    ensures Contains(s, pat) ==> forall j :: 0 <= j < |pat| ==> pat[j] in s
  {
    ContainsIffOccurs(s, pat);
    if Contains(s, pat) {
      var i :| OccursAt(s, pat, i);
      forall j | 0 <= j < |pat|
        ensures pat[j] in s
      {
        assert s[i + j] == s[i..i + |pat|][j];
      }
    }
  }

  /** A character of `pat` missing from `s` rules out an occurrence. */
  lemma MissingCharNoContain(s: string, pat: string, c: char)
    requires c in pat && c !in s
    ensures !Contains(s, pat)
  {
    ContainsHasChars(s, pat);
  }

  /** Text free of the last character of `pat` cannot end an occurrence, so
      appending it changes nothing about containment. */
  lemma ContainsSkipTailless(a: string, b: string, pat: string)
    requires |pat| > 0 && pat[|pat| - 1] !in b
    ensures Contains(a + b, pat) <==> Contains(a, pat)
  {
    ContainsIffOccurs(a + b, pat);
    ContainsIffOccurs(a, pat);
    forall i | OccursAt(a + b, pat, i)
      ensures OccursAt(a, pat, i)
    {
      var e := i + |pat| - 1;
      assert (a + b)[e] == (a + b)[i..i + |pat|][|pat| - 1] == pat[|pat| - 1];
      assert forall k :: |a| <= k < |a + b| ==> (a + b)[k] == b[k - |a|];
      assert (a + b)[i..i + |pat|] == a[i..i + |pat|];
    }
    forall i | OccursAt(a, pat, i)
      ensures OccursAt(a + b, pat, i)
    {
      assert (a + b)[i..i + |pat|] == a[i..i + |pat|];
    }
  }

  lemma HeadlessDoesNotContain(s: string, pat: string)
    requires |pat| > 0 && pat[0] !in s
    ensures !Contains(s, pat)
  {
    ContainsSkipHeadless(s, "", pat);
    assert s + "" == s;
    ShortDoesNotContain("", pat);
  }

  // ---------------------------------------------------------------- split / join

  /** Python's `s.split(sep)`: the pieces between the occurrences of `sep`
      found by a left-to-right scan that never overlaps a match. */
  function Split(s: string, sep: string): (parts: seq<string>)
    requires |sep| > 0
    ensures |parts| >= 1
    decreases |s|
  {
    if |s| < |sep| then [s]
    else if s[..|sep|] == sep then [""] + Split(s[|sep|..], sep)
    else
      var rest := Split(s[1..], sep);
      [[s[0]] + rest[0]] + rest[1..]
  }

  function Last(parts: seq<string>): string
    requires |parts| > 0
  {
    parts[|parts| - 1]
  }

  /** Python's `sep.join(parts)`. */
  function JoinWith(parts: seq<string>, sep: string): string
  {
    if |parts| == 0 then ""
    else if |parts| == 1 then parts[0]
    else parts[0] + sep + JoinWith(parts[1..], sep)
  }

  /** A character found in neither the parts nor the separator is not in
      their join. */
  lemma {:induction false} JoinWithAvoids(parts: seq<string>, sep: string, c: char)
    requires c !in sep
    requires forall k :: 0 <= k < |parts| ==> c !in parts[k]
    ensures c !in JoinWith(parts, sep)
    decreases |parts|
  {
    if |parts| > 1 {
      JoinWithAvoids(parts[1..], sep, c);
    }
  }

  lemma JoinWithConsHead(x: string, parts: seq<string>, sep: string)
    requires |parts| > 0
    ensures JoinWith([x + parts[0]] + parts[1..], sep) == x + JoinWith(parts, sep)
  {
    var q := [x + parts[0]] + parts[1..];
    assert q[1..] == parts[1..];
  }

  lemma JoinWithPrefix(parts: seq<string>, sep: string)
    requires |parts| > 0
    ensures parts[0] <= JoinWith(parts, sep)
  {
    if |parts| > 1 {
      assert (parts[0] + sep + JoinWith(parts[1..], sep))[..|parts[0]|] == parts[0];
    }
  }

  /** Joining the pieces with the separator gives back the original string. */
  lemma {:induction false} SplitJoin(s: string, sep: string)
    requires |sep| > 0
    ensures JoinWith(Split(s, sep), sep) == s
    decreases |s|
  {
    if |s| < |sep| {
    } else if s[..|sep|] == sep {
      var rest := Split(s[|sep|..], sep);
      assert Split(s, sep) == [""] + rest;
      SplitJoin(s[|sep|..], sep);
      assert ([""] + rest)[1..] == rest;
      assert s == sep + s[|sep|..];
    } else {
      var rest := Split(s[1..], sep);
      assert Split(s, sep) == [[s[0]] + rest[0]] + rest[1..];
      SplitJoin(s[1..], sep);
      JoinWithConsHead([s[0]], rest, sep);
      assert s == [s[0]] + s[1..];
    }
  }

  /** No piece of a split contains the separator. */
  lemma {:induction false} SplitPiecesFree(s: string, sep: string)
    requires |sep| > 0
    ensures forall k :: 0 <= k < |Split(s, sep)| ==> !Contains(Split(s, sep)[k], sep)
    decreases |s|
  {
    var parts := Split(s, sep);
    if |s| < |sep| {
      ShortDoesNotContain(s, sep);
    } else if s[..|sep|] == sep {
      var rest := Split(s[|sep|..], sep);
      SplitPiecesFree(s[|sep|..], sep);
      ShortDoesNotContain("", sep);
      assert parts == [""] + rest;
      forall k | 0 <= k < |parts|
        ensures !Contains(parts[k], sep)
      {
        if k > 0 { assert parts[k] == rest[k - 1]; }
      }
    } else {
      var rest := Split(s[1..], sep);
      SplitPiecesFree(s[1..], sep);
      var head := [s[0]] + rest[0];
      assert head <= s by {
        SplitJoin(s[1..], sep);
        JoinWithPrefix(rest, sep);
        assert s == [s[0]] + s[1..];
        assert s[..|head|] == [s[0]] + s[1..][..|rest[0]|];
      }
      assert !(sep <= head) by {
        if |sep| <= |head| { assert head[..|sep|] == s[..|sep|]; }
      }
      assert head[1..] == rest[0];
      assert !Contains(head, sep);
      assert parts == [head] + rest[1..];
      forall k | 0 <= k < |parts|
        ensures !Contains(parts[k], sep)
      {
        if k > 0 { assert parts[k] == rest[k]; }
      }
    }
  }

  lemma {:induction false} SplitWithoutSep(s: string, sep: string)
    requires |sep| > 0
    requires !Contains(s, sep)
    ensures Split(s, sep) == [s]
    decreases |s|
  {
    if |s| >= |sep| {
      assert s[..|sep|] != sep;
      SplitWithoutSep(s[1..], sep);
      assert s == [s[0]] + s[1..];
    }
  }

  /** With a one-character separator, a piece free of it is split off the
      front intact. */
  lemma {:induction false} SplitAtFirst(p: string, c: char, rest: string)
    requires c !in p
    ensures Split(p + [c] + rest, [c]) == [p] + Split(rest, [c])
    decreases |p|
  {
    var s := p + [c] + rest;
    if |p| == 0 {
      assert s == [c] + rest;
      assert s[..1] == [c];
      assert s[1..] == rest;
    } else {
      assert s[..1] == [p[0]];
      assert s[1..] == p[1..] + [c] + rest;
      SplitAtFirst(p[1..], c, rest);
      assert [p[0]] + p[1..] == p;
    }
  }

  /** Joining pieces free of a one-character separator and splitting the
      result gives the pieces back. */
  lemma {:induction false} SplitJoinWith(parts: seq<string>, c: char)
    requires |parts| > 0
    requires forall k :: 0 <= k < |parts| ==> c !in parts[k]
    ensures Split(JoinWith(parts, [c]), [c]) == parts
    decreases |parts|
  {
    if |parts| == 1 {
      HeadlessDoesNotContain(parts[0], [c]);
      SplitWithoutSep(parts[0], [c]);
    } else {
      SplitJoinWith(parts[1..], c);
      SplitAtFirst(parts[0], c, JoinWith(parts[1..], [c]));
      assert [parts[0]] + parts[1..] == parts;
    }
  }

  /** `sep` cannot overlap a copy of itself: no proper suffix is also a prefix. */
  predicate NoSelfOverlap(sep: string)
  {
    forall k :: 0 < k < |sep| ==> sep[k..] != sep[..|sep| - k]
  }

  /** Two occurrences of a non-self-overlapping `sep` cannot start less than
      `|sep|` apart, so text shorter than `sep` in front of it is no match. */
  lemma ShortLeadNoMatch(a: string, sep: string, p: string)
    requires 0 < |a| < |sep|
    requires NoSelfOverlap(sep)
    ensures (a + sep + p)[..|sep|] != sep
  {
    var s := a + sep + p;
    var k := |a|;
    assert s[..|sep|][k..] == s[k..|sep|];
    assert s[k..|sep|] == sep[..|sep| - k];
    assert sep[k..] != sep[..|sep| - k];
  }

  /** For a non-self-overlapping separator, the last piece of a split is
      exactly the text after the final occurrence. */
  lemma {:induction false} SplitLastAfter(a: string, sep: string, p: string)
    requires |sep| > 0
    requires NoSelfOverlap(sep)
    requires !Contains(p, sep)
    ensures |Split(a + sep + p, sep)| >= 2
    ensures Last(Split(a + sep + p, sep)) == p
    decreases |a|
  {
    var s := a + sep + p;
    if |a| == 0 {
      assert s == sep + p;
      assert s[..|sep|] == sep;
      assert s[|sep|..] == p;
      SplitWithoutSep(p, sep);
      SplitAtSepLast(s, sep);
    } else if |a| < |sep| {
      ShortLeadNoMatch(a, sep, p);
      assert s[1..] == a[1..] + sep + p;
      SplitLastAfter(a[1..], sep, p);
      SplitPastCharLast(s, sep);
    } else if s[..|sep|] == sep {
      assert s[|sep|..] == a[|sep|..] + sep + p;
      SplitLastAfter(a[|sep|..], sep, p);
      SplitAtSepLast(s, sep);
    } else {
      assert s[1..] == a[1..] + sep + p;
      SplitLastAfter(a[1..], sep, p);
      SplitPastCharLast(s, sep);
    }
  }

  /** A separator at the front adds one empty piece and keeps the last. */
  lemma SplitAtSepLast(s: string, sep: string)
    requires |sep| > 0 && |s| >= |sep| && s[..|sep|] == sep
    ensures |Split(s, sep)| == 1 + |Split(s[|sep|..], sep)|
    ensures Last(Split(s, sep)) == Last(Split(s[|sep|..], sep))
  {
    var rest := Split(s[|sep|..], sep);
    assert Split(s, sep) == [""] + rest;
  }

  /** A leading character that starts no separator joins the first piece and
      keeps the last. */
  lemma SplitPastCharLast(s: string, sep: string)
    requires |sep| > 0 && |s| >= |sep| && s[..|sep|] != sep
    requires |Split(s[1..], sep)| >= 2
    ensures |Split(s, sep)| == |Split(s[1..], sep)|
    ensures Last(Split(s, sep)) == Last(Split(s[1..], sep))
  {
    var rest := Split(s[1..], sep);
    var parts := [[s[0]] + rest[0]] + rest[1..];
    assert Split(s, sep) == parts;
    assert |parts| == |rest|;
    assert parts[|parts| - 1] == rest[1..][|rest| - 2] == rest[|rest| - 1];
  }

  // ---------------------------------------------------------------- replace

  /** Python's `s.replace(pat, rep)`: every occurrence found by a left-to-right
      scan that never overlaps a match is replaced, in one pass. */
  function ReplaceAll(s: string, pat: string, rep: string): string
    requires |pat| > 0
    decreases |s|
  {
    if |s| < |pat| then s
    else if s[..|pat|] == pat then rep + ReplaceAll(s[|pat|..], pat, rep)
    else [s[0]] + ReplaceAll(s[1..], pat, rep)
  }

  lemma {:induction false} ReplaceAbsent(s: string, pat: string, rep: string)
    requires |pat| > 0
    requires !Contains(s, pat)
    ensures ReplaceAll(s, pat, rep) == s
    decreases |s|
  {
    if |s| >= |pat| {
      assert !(pat <= s);
      ReplaceAbsent(s[1..], pat, rep);
      assert s == [s[0]] + s[1..];
    }
  }

  /** Text free of the first character of `pat` passes through unchanged. */
  lemma {:induction false} ReplaceSkipHeadless(a: string, b: string, pat: string, rep: string)
    requires |pat| > 0 && pat[0] !in a
    ensures ReplaceAll(a + b, pat, rep) == a + ReplaceAll(b, pat, rep)
    decreases |a|
  {
    if |a| > 0 {
      if |a + b| < |pat| {
        assert ReplaceAll(b, pat, rep) == b;
      } else {
        assert (a + b)[..|pat|][0] == a[0];
        assert (a + b)[1..] == a[1..] + b;
        ReplaceSkipHeadless(a[1..], b, pat, rep);
        assert a == [a[0]] + a[1..];
      }
    } else {
      assert a + b == b;
    }
  }

  lemma ReplaceAtHead(pat: string, b: string, rep: string)
    requires |pat| > 0
    ensures ReplaceAll(pat + b, pat, rep) == rep + ReplaceAll(b, pat, rep)
  {
    assert (pat + b)[..|pat|] == pat;
    assert (pat + b)[|pat|..] == b;
  }

  // ---------------------------------------------------------------- strip

  /** The characters CPython's `str.isspace` accepts, which `strip()` with no
      argument removes. */
  predicate IsSpace(c: char)
  {
    c == ' ' || ('\t' <= c <= '\r') || ('\U{1C}' <= c <= '\U{1F}') || c == '\U{85}' || c == '\U{A0}'
    || c == '\U{1680}' || ('\U{2000}' <= c <= '\U{200A}') || c == '\U{2028}' || c == '\U{2029}'
    || c == '\U{202F}' || c == '\U{205F}' || c == '\U{3000}'
  }

  predicate AllSpace(s: string)
  {
    forall i :: 0 <= i < |s| ==> IsSpace(s[i])
  }

  /** The first index at or after `i` that is not white space, or `|s|`. */
  function SkipSpace(s: string, i: nat): (k: nat)
    requires i <= |s|
    ensures i <= k <= |s|
    ensures forall j :: i <= j < k ==> IsSpace(s[j])
    ensures k == |s| || !IsSpace(s[k])
    decreases |s| - i
  {
    if i < |s| && IsSpace(s[i]) then SkipSpace(s, i + 1) else i
  }

  /** The end of `s[lo..e]` once trailing white space is cut off. */
  function BackSpace(s: string, lo: nat, e: nat): (k: nat)
    requires lo <= e <= |s|
    ensures lo <= k <= e
    ensures forall j :: k <= j < e ==> IsSpace(s[j])
    ensures k == lo || !IsSpace(s[k - 1])
    decreases e
  {
    if e > lo && IsSpace(s[e - 1]) then BackSpace(s, lo, e - 1) else e
  }

  /** How many white-space characters `s` starts with. */
  function LeadingSpace(s: string): nat
    ensures LeadingSpace(s) <= |s|
  {
    SkipSpace(s, 0)
  }

  /** Python's `s.strip()`: the result is the slice of `s` after its leading
      white space, it neither starts nor ends with white space, and only
      white space was cut away on either side. */
  function Strip(s: string): (r: string)
    ensures LeadingSpace(s) + |r| <= |s| && r == s[LeadingSpace(s)..LeadingSpace(s) + |r|]
    ensures forall i :: 0 <= i < LeadingSpace(s) ==> IsSpace(s[i])
    ensures forall i :: LeadingSpace(s) + |r| <= i < |s| ==> IsSpace(s[i])
    ensures r == "" || (!IsSpace(r[0]) && !IsSpace(r[|r| - 1]))
  {
    var k := LeadingSpace(s);
    s[k..BackSpace(s, k, |s|)]
  }

  /** The stripped text is empty exactly when the input is all white space. */
  lemma StripEmptyIffBlank(s: string)
    ensures Strip(s) == "" <==> AllSpace(s)
  {
    var k := LeadingSpace(s);
    assert k < |s| ==> !IsSpace(s[k]);
  }

  /** Stripping twice is stripping once. */
  lemma StripIdempotent(s: string)
    ensures Strip(Strip(s)) == Strip(s)
  {
    var r := Strip(s);
    assert LeadingSpace(r) == 0;
    assert BackSpace(r, 0, |r|) == |r|;
    assert r[0..|r|] == r;
  }
}
